=== FILE: README.md ===
# PFQ functional language: a Dafny model of the C++ DSL compiler

PFQ lets a user program the in-kernel packet pipeline with a small functional
language. The C++ header `user/C++/pfq/lang/lang.hpp` is that language's
front end. Users build typed expression trees of three node families:

- properties (`ip_len`), which compute a value;
- predicates (`is_ip`, `has_port 80`), combined with `not`, `or`, `and`, `xor`;
- monadic actions (`steer_ip`, `when p f`, `conditional p f g`), chained by
  Kleisli composition `>->`.

Each literal operand is wrapped by `make_argument` into an `Argument` capsule,
a triple (payload, size, nelem). `serialize` flattens a tree in pre-order into
a vector of `FunctionDescr` records, the program the kernel runs. Each record
has a symbol, eight argument slots, its own index, and a continuation link.
A child node is referenced from its parent by a back-reference argument
(`FunPtr(k)`) that holds the child's index. `pretty` renders a tree as an
s-expression.

The model has one Dafny module per concern:

| file | module | contents |
|---|---|---|
| `wrappers.dfy` | `Wrappers` | `Option`, `Result` |
| `text.dfy` | `Text` | `std::to_string` as `Decimal`, the "each part then a blank" layout |
| `arguments.dfy` | `Arguments` | the capsule, its six constructors, `make_argument`, `show`, `pretty`, the SVector encoding |
| `descriptors.dfy` | `Descriptors` | `FunctionDescr`, `make_array`, `fix_computation`, `show(FunctionDescr)` |
| `nodes.dfy` | `Nodes` | the node structs as three datatypes, `kleisly`, `operator>>` |
| `serializer.dfy` | `Serializer` | every `serialize` overload, including the list overload |
| `serializer_properties.dfy` | `SerializerProperties` | shape, linkage, symbol and composition theorems about `serialize` |
| `pretty.dfy` | `Pretty` | every `pretty` overload for nodes |
| `pretty_properties.dfy` | `PrettyProperties` | bracket balance, composition and chains for `pretty` |

## How the C++ becomes Dafny

- `size_t` is `nat`. The sentinels `static_cast<size_t>(-1)` and `-1UL` are
  `NPOS` and `TERMINAL` (2^64 - 1).
- The type-erased payload (`StorableShowBase`) is a `Payload` value that
  remembers only what `forall_show()` prints. A POD's stream insertion text
  is an abstract display string chosen by the caller.
- The static_asserts that keep a predicate slot from holding an action are
  expressed by the types: `Prop`, `Pred` and `Act` are separate datatypes.
  An `Argument` inside a node has type `Literal`, meaning it was built by
  `make_argument`, which never produces a `FunPtr`.
- Overload resolution on the node type is a `match`: `SerializePred`,
  `SerializeAct`, `PrettyPred` and `PrettyAct` dispatch on the node kind.
  Each overload for a node with children is its own function, named after
  the node (`SerializeMFunctionPF`, `PrettyCombinator2`, ...).
- `kleisly` is a partial function on `Signature`. `operator>>` is `Compose`,
  which returns `Err(CompositionMismatch)` where C++ would fail to compile.
- `pretty` throws `std::logic_error` on an unknown combinator symbol. The
  model returns `Err(CombinatorInternalError)` instead.
- Code that loops or updates in place in C++ is modelled as a method, proved
  equal to a specification function. This covers `make_array`, `fix_computation`
  (in place on an `array`), `show(FunctionDescr)`, `Argument::SVector`,
  `get_string(std::vector)`, `pretty(Property)` and the list overload of
  `serialize`.

Behaviour of the code worth knowing, which the model follows:

- `Argument::SVector` stores its payload with size 0, so `show` classifies it
  as `ArgString`, not as a vector.
- `serialize(PredicateR1)` puts the literal argument in slot 1, after the
  `FunPtr` in slot 0.
- `make_array` never advances its counter. Every argument of a `Property` is
  written to slot 0, so slot 0 ends up holding the last argument and the
  other seven slots stay null (`PropertySlots`, `PropertyLeaf`).
- `pretty(Property)` concatenates the argument renderings with no blank
  between them (`PropertyArgumentsAdjacent`).
- `fix_computation` patches only the last descriptor of an embedded action.
  An action wrapper nested inside another wrapper keeps its head link, which
  points at its sibling's first descriptor (`EmbeddedWrapperKeepsLink`).
- There is no check on the number of arguments or on payload size.

## Model

| member | source | states |
|---|---|---|
| Arguments.ShowPayload | user/C++/pfq/lang/lang.hpp:165-192 | get_string, as forall_show returns it: a vector's display opens with "[", closes with "]" and is at least two longer than its element count; a string's display is exactly the text between two double quotes; a scalar's display is passed through unchanged, which DataArg and MakeArgument state |
| Arguments.Classify | user/C++/pfq/lang/lang.hpp:318-340 | show's priority order: ArgNull exactly for the null triple, a payload kind (ArgData, ArgVector, ArgString) exactly when there is a payload, ArgData with nelem the sentinel, ArgVector with any other nelem, ArgString with size 0, ArgFun targeting the size field; BackRefIffArgFun carries the back-reference property |
| Arguments.Show | user/C++/pfq/lang/lang.hpp:318-340 | every show text starts with "Arg", and it is "ArgNull" exactly for the null kind; ShowFunPtrRoundTrip carries the back-reference case |
| Arguments.Pretty | user/C++/pfq/lang/lang.hpp:342-350 | without a payload and with a size, pretty prints "arg[" ... "]"; PrettyIsShownPayload, PrettyEmptyIff and PrettyBackRef carry the rest |
| Arguments.PrettyIsShownPayload | user/C++/pfq/lang/lang.hpp:318-350 | with a payload, pretty prints exactly the text show prints after its kind word (ArgString, ArgData or ArgVector, by size and nelem) |
| Arguments.BackRefIffArgFun | user/C++/pfq/lang/lang.hpp:318-340 | the engine's back-reference test (no payload, not the null triple) holds exactly when show classifies the argument as ArgFun, and then the target is the size field |
| Arguments.NullArg | user/C++/pfq/lang/lang.hpp:233-236 | the null triple is shown as ArgNull |
| Arguments.DataArg | user/C++/pfq/lang/lang.hpp:238-244 | a POD argument is shown as ArgData with its display and records its byte width as size |
| Arguments.VectorArg | user/C++/pfq/lang/lang.hpp:246-252 | a POD vector is shown as ArgVector with the "[e1 e2 ]" layout; size is the element width and nelem the element count |
| Arguments.StringArg | user/C++/pfq/lang/lang.hpp:254-258 | a string is shown as ArgString in double quotes, with nelem the non-vector sentinel |
| Arguments.SVectorArg | user/C++/pfq/lang/lang.hpp:260-273 | a string vector is shown as ArgString of the separator-joined text, with nelem the number of strings |
| Arguments.FunPtr | user/C++/pfq/lang/lang.hpp:275-278 | a FunPtr is shown as ArgFun with its target and is a back-reference |
| Arguments.LiteralIsNotBackRef | user/C++/pfq/lang/lang.hpp:286-316 | no argument make_argument builds is a back-reference |
| Arguments.MakeArgument | user/C++/pfq/lang/lang.hpp:286-316 | each operand kind maps to exactly one show kind (no value to ArgNull, POD to ArgData, POD vector to ArgVector, string or string vector to ArgString), keeping width and element counts, and the shown text of each kind: the POD display, the "[e1 e2 ]" vector layout, the quoted string, and the quoted separator-joined strings |
| Arguments.ShowFunPtrRoundTrip | user/C++/pfq/lang/lang.hpp:335-337 | show of a back-reference is "ArgFun " followed by decimal digits that read back as the target |
| Arguments.PrettyEmptyIff | user/C++/pfq/lang/lang.hpp:342-350 | pretty(Argument) is empty exactly for a payload-less argument with size 0, or a scalar whose display is empty |
| Arguments.PrettyBackRef | user/C++/pfq/lang/lang.hpp:342-350 | a back-reference to k > 0 renders as "arg[k]" and is never empty |
| Arguments.Join | user/C++/pfq/lang/lang.hpp:260-273 | closed form of the SVector loop; with n strings its text has at least n-1 characters, one separator per pair of neighbours; JoinRecords proves the loop equal to it, JoinLength gives its exact length and SplitJoin its inverse |
| Arguments.JoinLength | user/C++/pfq/lang/lang.hpp:260-273 | exactly one separator between neighbours: the joined text is one character shorter than the same strings each followed by one blank |
| Arguments.JoinSnoc | user/C++/pfq/lang/lang.hpp:262-269 | appending a string to a non-empty list adds one separator and that string |
| Arguments.JoinRecords | user/C++/pfq/lang/lang.hpp:262-269 | the SVector loop writes the separator between neighbours only, and its result equals Join |
| Arguments.Split | user/C++/pfq/lang/lang.hpp:260-273 | the inverse of the join at 260-273 (it cuts a payload at every separator and always gives at least one piece), used by SplitJoin and SVectorRoundTrip |
| Arguments.SplitJoin | user/C++/pfq/lang/lang.hpp:260-273 | splitting a joined non-empty list whose strings contain no separator gives the list back |
| Arguments.SVectorRoundTrip | user/C++/pfq/lang/lang.hpp:260-273 | the payload text and nelem of an SVector determine its strings, the empty list included, when no string contains the separator |
| Arguments.ShowVector | user/C++/pfq/lang/lang.hpp:170-178 | the get_string loop over a vector yields "[" then each element followed by a blank, then "]" |
| Text.Decimal | user/C++/pfq/lang/lang.hpp:363-377 | std::to_string gives at least one digit, only digits, and no leading zero: a text starting with "0" is "0" itself, the text of zero |
| Text.DecimalRoundTrip | user/C++/pfq/lang/lang.hpp:363-377 | reading back the decimal text gives the number |
| Text.TerminatedAppend | user/C++/pfq/lang/lang.hpp:170-178 | the "each part then a blank" layout distributes over concatenation of the part lists |
| Text.TerminatedSize | user/C++/pfq/lang/lang.hpp:170-178 | the layout's length is the sum of the part lengths plus one blank per part |
| Descriptors.Slots | user/C++/pfq/lang/lang.hpp:354-360 | brace-initialising the 8-slot array keeps the listed arguments in order and leaves every remaining slot null |
| Descriptors.PropertySlots | user/C++/pfq/lang/lang.hpp:597-611 | make_array as written: slot 0 holds the last argument (null when there is none) and slots 1 to 7 are null |
| Descriptors.MakeArray | user/C++/pfq/lang/lang.hpp:597-611 | the make_array loop, with its counter never advanced, produces PropertySlots |
| Descriptors.Fixed | user/C++/pfq/lang/lang.hpp:613-620 | the fix-up keeps the length and every descriptor but the last, and sets the last one's link to TERMINAL |
| Descriptors.FixComputation | user/C++/pfq/lang/lang.hpp:613-620 | fix_computation updates the vector in place to Fixed of its old contents |
| Descriptors.FixedIdempotent | user/C++/pfq/lang/lang.hpp:613-620 | the fix-up leaves an empty vector alone, and applying it twice is the same as applying it once |
| Descriptors.FixedNoOpIff | user/C++/pfq/lang/lang.hpp:613-620 | the fix-up changes nothing exactly when the vector is empty or already ends TERMINAL |
| Descriptors.DescrText | user/C++/pfq/lang/lang.hpp:363-377 | show(FunctionDescr) opens with "FunctionDescr " and the symbol and closes with ")"; ShowDescr proves the loop equal to it |
| Descriptors.ShowDescr | user/C++/pfq/lang/lang.hpp:363-377 | the show(FunctionDescr) loop gives the symbol, the eight argument texts each followed by a blank, then the index and the link |
| Nodes.TypeOf | user/C++/pfq/lang/lang.hpp:385-402 | the `type` member: NetFunction for every struct, and a Composition's Kleisli type is NetFunction whenever it exists; EveryActionIsNetFunction proves it always exists |
| Nodes.Kleisli | user/C++/pfq/lang/lang.hpp:975-999 | Kleisli composition of M<B>(A) with M<C>(B') exists exactly when B equals B', and is then M<C>(A) |
| Nodes.EveryActionIsNetFunction | user/C++/pfq/lang/lang.hpp:975-999 | every action, compositions included, has type NetFunction |
| Nodes.Compose | user/C++/pfq/lang/lang.hpp:1375-1382 | operator>> builds Composition(f, g) exactly when the Kleisli type exists, and the result goes from f's input to g's output; otherwise it is a composition mismatch |
| Nodes.ComposeAlwaysSucceeds | user/C++/pfq/lang/lang.hpp:1375-1382 | with the single state type SkBuff, composing any two actions succeeds |
| Serializer.SerializeProp | user/C++/pfq/lang/lang.hpp:622-626 | a property becomes exactly one descriptor, with index n and link TERMINAL, and the next index is n+1 |
| Serializer.PropContiguous | user/C++/pfq/lang/lang.hpp:622-626 | the property's block occupies index n alone and is TERMINAL |
| Serializer.SerializePred | user/C++/pfq/lang/lang.hpp:755-810 | a predicate tree becomes a non-empty block, and the next index is n plus the block's length |
| Serializer.PredContiguous | user/C++/pfq/lang/lang.hpp:526-557 | the block of a predicate tree is numbered n, n+1, ... in order, and every predicate descriptor is TERMINAL |
| Serializer.SerializePredicateR | user/C++/pfq/lang/lang.hpp:780-794 | serialize(PredicateR) gives a non-empty block, and the next index is n plus its length |
| Serializer.SerializePredicateR1 | user/C++/pfq/lang/lang.hpp:796-810 | the same for serialize(PredicateR1) |
| Serializer.SerializeCombinator1 | user/C++/pfq/lang/lang.hpp:526-540 | the same for serialize(Combinator1) |
| Serializer.SerializeCombinator2 | user/C++/pfq/lang/lang.hpp:543-557 | the same for serialize(Combinator2); its first FunPtr is n+1 and its second is the index where the first operand's block ends |
| Serializer.SerializeAct | user/C++/pfq/lang/lang.hpp:1079-1215 | an action tree becomes a non-empty block, and the next index is n plus the block's length |
| Serializer.ActContiguous | user/C++/pfq/lang/lang.hpp:1079-1215 | the block of an action tree is numbered n, n+1, ... in order, fix-ups and compositions included |
| Serializer.SerializeMFunction1P | user/C++/pfq/lang/lang.hpp:1103-1115 | serialize(MFunction1P) gives a non-empty block, and the next index is n plus its length |
| Serializer.SerializeMFunctionP | user/C++/pfq/lang/lang.hpp:1117-1129 | the same for serialize(MFunctionP) |
| Serializer.SerializeMFunctionPF | user/C++/pfq/lang/lang.hpp:1132-1147 | the same for serialize(MFunctionPF) |
| Serializer.SerializeMFunctionPFF | user/C++/pfq/lang/lang.hpp:1150-1167 | the same for serialize(MFunctionPFF) |
| Serializer.SerializeMFunctionF | user/C++/pfq/lang/lang.hpp:1169-1183 | the same for serialize(MFunctionF) |
| Serializer.SerializeMFunctionFF | user/C++/pfq/lang/lang.hpp:1185-1201 | the same for serialize(MFunctionFF) |
| Serializer.SerializeComposition | user/C++/pfq/lang/lang.hpp:1204-1215 | the same for serialize(Composition) |
| Serializer.SerializeAll | user/C++/pfq/lang/lang.hpp:1221-1234 | actions serialized back to back: the next index is n plus the total length, and there is at least one descriptor per action |
| Serializer.SerializeList | user/C++/pfq/lang/lang.hpp:1221-1234 | the list loop, threading n1 and appending each block, computes SerializeAll |
| SerializerProperties.PredicateLeaf | user/C++/pfq/lang/lang.hpp:755-778 | a leaf predicate becomes one TERMINAL descriptor with its symbol, its literals in order and null slots after them |
| SerializerProperties.ActionLeaf | user/C++/pfq/lang/lang.hpp:1079-1101 | a leaf action has the same shape but continues at n+1 |
| SerializerProperties.PropertyLeaf | user/C++/pfq/lang/lang.hpp:622-626 | a property descriptor is TERMINAL, holds only its last argument in slot 0 and null elsewhere |
| SerializerProperties.PropWellLinked | user/C++/pfq/lang/lang.hpp:622-626 | a property descriptor links nowhere |
| SerializerProperties.PredWellLinked | user/C++/pfq/lang/lang.hpp:755-810 | in a serialized predicate every link is TERMINAL or forward within the program, and every back-reference points strictly forward into it |
| SerializerProperties.ActWellLinked | user/C++/pfq/lang/lang.hpp:1079-1215 | the same for every serialized action, after the fix-up of embedded children |
| SerializerProperties.PredWrapper | user/C++/pfq/lang/lang.hpp:526-557 | a wrapper predicate's descriptor is TERMINAL, references its first child at n+1 (then the second child where there is one, and the literal for PredicateR1), and the children's blocks follow it unchanged |
| SerializerProperties.ActFilter | user/C++/pfq/lang/lang.hpp:1103-1129 | MFunctionP and MFunction1P continue after their predicate's block and reference it at n+1 (slot 1 for MFunction1P, after the literal) |
| SerializerProperties.ActGuarded | user/C++/pfq/lang/lang.hpp:1131-1147 | MFunctionPF references its predicate and its fixed-up action child, continues after both, and its last descriptor is TERMINAL |
| SerializerProperties.ActBranch | user/C++/pfq/lang/lang.hpp:1149-1167 | MFunctionPFF references its predicate and both fixed-up action children in order, and continues after all three |
| SerializerProperties.BranchChildrenTerminal | user/C++/pfq/lang/lang.hpp:1149-1167 | both embedded action blocks of MFunctionPFF end TERMINAL |
| SerializerProperties.ActNested | user/C++/pfq/lang/lang.hpp:1169-1183 | MFunctionF references its fixed-up child at n+1, continues after it, and ends TERMINAL |
| SerializerProperties.ActPair | user/C++/pfq/lang/lang.hpp:1185-1201 | MFunctionFF references both fixed-up children in order and continues after them |
| SerializerProperties.PairChildrenTerminal | user/C++/pfq/lang/lang.hpp:1185-1201 | both embedded action blocks of MFunctionFF end TERMINAL |
| SerializerProperties.ActHeadLink | user/C++/pfq/lang/lang.hpp:1079-1201 | the head descriptor of any non-Composition action continues right after the whole action |
| SerializerProperties.EmbeddedWrapperKeepsLink | user/C++/pfq/lang/lang.hpp:613-620 | fix_computation does not reset the head link of a wrapper embedded as the first child of MFunctionFF, which still points at its sibling's first descriptor |
| SerializerProperties.CompositionConcatenates | user/C++/pfq/lang/lang.hpp:1203-1215 | a Composition adds no descriptor: it is the left operand's code followed by the right's, both unpatched |
| SerializerProperties.CompositionAssociative | user/C++/pfq/lang/lang.hpp:1203-1215 | (f >-> g) >-> h and f >-> (g >-> h) serialize to the same program and next index |
| SerializerProperties.PredSymbolsPreserved | user/C++/pfq/lang/lang.hpp:526-810 | serialize emits exactly one descriptor per predicate or property node, in pre-order, with the node's symbol |
| SerializerProperties.ActSymbolsPreserved | user/C++/pfq/lang/lang.hpp:1079-1215 | serialize emits exactly one descriptor per action node except Composition, in pre-order, with the node's symbol |
| SerializerProperties.NextCountsNodes | user/C++/pfq/lang/lang.hpp:1079-1215 | the returned next index is the start plus the number of non-Composition nodes |
| SerializerProperties.PlainListShape | user/C++/pfq/lang/lang.hpp:1221-1234 | a list of plain MFunctions becomes one argument-less descriptor per element, at consecutive indices, each continuing at the next |
| SerializerProperties.ListIsComposition | user/C++/pfq/lang/lang.hpp:1221-1234 | serializing a list equals serializing the left-nested composition of its elements |
| SerializerProperties.LessThanIpLen | user/C++/pfq/lang/lang.hpp:796-810 | less(ip_len, 100) at 0 gives [less: FunPtr(1), 100, TERMINAL] then [ip_len, TERMINAL], with next index 2 |
| Pretty.PrettyProp | user/C++/pfq/lang/lang.hpp:578-592 | pretty(Property): the bare symbol without arguments, otherwise an s-expression opening with "(" and the symbol and closing with ")"; PrettyProperty proves the loop equal to it |
| Pretty.PrettyProperty | user/C++/pfq/lang/lang.hpp:578-592 | the pretty(Property) loop, skipping empty renderings, gives the bare symbol, or "(symbol " + the argument renderings + ")" |
| Pretty.PrettyPred | user/C++/pfq/lang/lang.hpp:716-752 | pretty of a predicate renders the leaves as at 716-752 and hands the combinators to PrettyCombinator1 and PrettyCombinator2 (500-523); it succeeds exactly when every combinator is "not" (unary) or "or", "and", "xor" (binary), and otherwise fails with the internal combinator error |
| Pretty.PrettyCombinator1 | user/C++/pfq/lang/lang.hpp:500-508 | pretty(Combinator1) succeeds exactly when the symbol is "not" and the operand renders; otherwise it is the internal combinator error |
| Pretty.PrettyCombinator2 | user/C++/pfq/lang/lang.hpp:511-523 | pretty(Combinator2) succeeds exactly when the symbol is "or", "and" or "xor" and both operands render; otherwise it is the same error |
| Pretty.PrettyAct | user/C++/pfq/lang/lang.hpp:1004-1075 | pretty of an action succeeds exactly when every predicate embedded in it does, and otherwise fails with the same error |
| Pretty.PrettyMFunction1P | user/C++/pfq/lang/lang.hpp:1028-1033 | pretty(MFunction1P) succeeds exactly when its predicate renders, and otherwise fails with the internal combinator error |
| Pretty.PrettyMFunctionP | user/C++/pfq/lang/lang.hpp:1035-1040 | the same for pretty(MFunctionP) |
| Pretty.PrettyMFunctionPF | user/C++/pfq/lang/lang.hpp:1042-1047 | pretty(MFunctionPF) succeeds exactly when its predicate and its action both render, and otherwise fails with the same error |
| Pretty.PrettyMFunctionPFF | user/C++/pfq/lang/lang.hpp:1049-1054 | pretty(MFunctionPFF) succeeds exactly when its predicate and both actions render |
| Pretty.PrettyMFunctionF | user/C++/pfq/lang/lang.hpp:1056-1061 | pretty(MFunctionF) succeeds exactly when its inner action renders |
| Pretty.PrettyMFunctionFF | user/C++/pfq/lang/lang.hpp:1063-1068 | pretty(MFunctionFF) succeeds exactly when both inner actions render |
| Pretty.PrettyComposition | user/C++/pfq/lang/lang.hpp:1070-1075 | pretty(Composition) succeeds exactly when both sides render |
| PrettyProperties.PropBalanced | user/C++/pfq/lang/lang.hpp:578-592 | a property whose symbol and argument renderings hold no parenthesis renders to a balanced string |
| PrettyProperties.PredBalanced | user/C++/pfq/lang/lang.hpp:716-752 | when pretty succeeds on such a predicate, the result is a well-bracketed s-expression |
| PrettyProperties.ActBalanced | user/C++/pfq/lang/lang.hpp:1004-1075 | the same for actions, compositions included |
| PrettyProperties.CompositionRenders | user/C++/pfq/lang/lang.hpp:1070-1075 | a composition renders as "f >-> g" when both sides render, and fails otherwise |
| PrettyProperties.CompositionPrettyAssociative | user/C++/pfq/lang/lang.hpp:1070-1075 | (f >-> g) >-> h and f >-> (g >-> h) render identically, failures included |
| PrettyProperties.ChainPretty | user/C++/pfq/lang/lang.hpp:1070-1075 | a chain of composed actions renders as its members' renderings joined by " >-> " |
| PrettyProperties.IsIpAndHasPort | user/C++/pfq/lang/lang.hpp:512-523 | is_ip & has_port 80 renders as "(is_ip & (has_port 80))" |
| PrettyProperties.PropertyArgumentsAdjacent | user/C++/pfq/lang/lang.hpp:578-592 | a property with arguments 1 and 2 renders as "(p 12)", with no blank between the arguments |

## Left out

- `ipv4_t` (lines 45-56) and its `show`/`pretty` (lines 58-72) are not modelled; the capsule models every payload by its display string. Note that `show(ipv4_t)` tests the result of `inet_ntop` the wrong way round (line 62): it throws whenever the conversion succeeds, and otherwise returns a buffer that was never filled.
- `show(pfq_functional_descr)` (lines 78-95) works on the kernel-side C struct. That struct, `predicate.c` and the kernel engine are not part of this model.
- The type-erasure machinery (`StorableShowBase`, `get_addr`, `has_insertion_operator`, the `"()"` fallback) and `std::stringstream` formatting of numbers: a POD's display is an abstract string.
- Arguments.VectorArg, Arguments.MakeArgument: these require a vector length below 2^64 - 1 and a non-zero width, which the C++ type system guarantees (`sizeof` is never 0 and a vector's size fits in `size_t`).
- Serializer.SerializeAct, Serializer.SerializePred: indices are unbounded naturals. The wrap-around of `n+1` past 2^64 - 1 is not modelled, and a program that large cannot be built.
- `operator+` on vectors (lines 114-129) is modelled as sequence concatenation. Move and copy semantics are not distinguished.
- Serializer.SerializeList: it requires every element to be a plain `MFunction`, as the `std::vector<MFunction>` parameter type does. `SerializeAll`, and the lemmas about it, also accept any action.
- The second `kleisly` specialization (lines 995-999) composes a function with a `Composition` type, but `Composition::type` is already a `Function`, so only the first specialization is modelled.
- The public constructor helpers (`combinator1`, `combinator2` and the others from line 1236 on) only forward to the node constructors, which are the datatype constructors here.
- Concurrency and memory ownership (`shared_ptr` sharing, moves) are not modelled.

=== FILE: arguments.dfy ===
/**
 * The argument capsule of lang.hpp: a triple (payload, size, nelem) built by
 * six named constructors, chosen by make_argument from the C++ type of the
 * operand, and classified again by show() through a fixed priority order.
 */
module Arguments {
  import opened Wrappers
  import opened Text

  /** static_cast<size_t>(-1): the nelem of anything that is not a vector. */
  const NPOS: nat := 0xFFFF_FFFF_FFFF_FFFF

  /** '\x1e', the separator SVector puts between the strings it joins. */
  const SEPARATOR: char := '\U{1E}'

  /**
   * What the type-erased StorableShow holds. Only its display text is
   * observable here, so a plain value is its display string and a vector of
   * plain values is the list of their display strings.
   */
  datatype Payload =
    | PodValue(display: string)
    | PodVector(displays: seq<string>)
    | StringValue(text: string)

  /** forall_show(): the display of a stored payload. */
  function ShowPayload(p: Payload): (r: string)
    ensures p.PodVector? ==> |r| >= |p.displays| + 2 && r[0] == '[' && r[|r| - 1] == ']'
    ensures p.StringValue? ==> |r| == |p.text| + 2 && r[0] == '"' && r[|r| - 1] == '"'
    ensures p.StringValue? ==> r[1..|r| - 1] == p.text
  {
    match p
    case PodValue(d) => d
    case PodVector(ds) => TerminatedSize(ds); "[" + Terminated(ds) + "]"
    case StringValue(t) => "\"" + t + "\""
  }

  /** An Argument: `ptr` is the optional shared payload, `size` and `nelem` are size_t. */
  datatype Argument = Argument(ptr: Option<Payload>, size: nat, nelem: nat)

  /** The classification show() prints, in the words it prints. */
  datatype ArgKind =
    | ArgNull
    | ArgData(shown: string)
    | ArgVector(shown: string)
    | ArgString(shown: string)
    | ArgFun(target: nat)

  /** show(Argument)'s decision, taken in the source's priority order. */
  function Classify(a: Argument): (r: ArgKind)
    ensures r.ArgNull? <==> a == Argument(None, 0, 0)
    ensures (r.ArgData? || r.ArgVector? || r.ArgString?) <==> a.ptr.Some?
    ensures r.ArgData? ==> a.size != 0 && a.nelem == NPOS
    ensures r.ArgVector? ==> a.size != 0 && a.nelem != NPOS
    ensures r.ArgString? ==> a.size == 0
    ensures r.ArgFun? ==> r.target == a.size && (a.size != 0 || a.nelem != 0)
  {
    if a.ptr.None? && a.size == 0 && a.nelem == 0 then ArgNull
    else if a.ptr.Some? && a.size != 0 && a.nelem == NPOS then ArgData(ShowPayload(a.ptr.value))
    else if a.ptr.Some? && a.size != 0 && a.nelem != NPOS then ArgVector(ShowPayload(a.ptr.value))
    else if a.ptr.Some? && a.size == 0 then ArgString(ShowPayload(a.ptr.value))
    else ArgFun(a.size)
  }

  /** A back-reference as the engine reads it: no payload, and not the null triple. */
  predicate IsBackRef(a: Argument) {
    a.ptr.None? && !(a.size == 0 && a.nelem == 0)
  }

  lemma BackRefIffArgFun(a: Argument)
    ensures IsBackRef(a) <==> Classify(a).ArgFun?
    ensures IsBackRef(a) ==> Classify(a) == ArgFun(a.size)
  {
  }

  function NullArg(): (a: Argument)
    ensures Classify(a) == ArgNull
  {
    Argument(None, 0, 0)
  }

  /** Argument::Data: a plain value of `width` bytes (sizeof is never 0). */
  function DataArg(display: string, width: nat): (a: Argument)
    requires width > 0
    ensures Classify(a) == ArgData(display)
    ensures a.size == width
  {
    Argument(Some(PodValue(display)), width, NPOS)
  }

  /** Argument::Vector: element size and the true element count. */
  function VectorArg(displays: seq<string>, width: nat): (a: Argument)
    requires width > 0 && |displays| < NPOS
    ensures Classify(a) == ArgVector("[" + Terminated(displays) + "]")
    ensures a.size == width && a.nelem == |displays|
  {
    Argument(Some(PodVector(displays)), width, |displays|)
  }

  /** Argument::String: size 0 and the non-vector sentinel. */
  function StringArg(s: string): (a: Argument)
    ensures Classify(a) == ArgString("\"" + s + "\"")
    ensures a.nelem == NPOS
  {
    Argument(Some(StringValue(s)), 0, NPOS)
  }

  /**
   * Argument::SVector: the strings joined by SEPARATOR, size 0 and the count
   * in nelem; having size 0 it is classified as a string, like String.
   */
  function SVectorArg(ss: seq<string>): (a: Argument)
    ensures Classify(a) == ArgString("\"" + Join(ss) + "\"")
    ensures a.nelem == |ss|
  {
    Argument(Some(StringValue(Join(ss))), 0, |ss|)
  }

  /** Argument::FunPtr: no payload; the size field carries the target index. */
  function FunPtr(k: nat): (a: Argument)
    ensures Classify(a) == ArgFun(k)
    ensures IsBackRef(a)
  {
    Argument(None, k, NPOS)
  }

  /** The arguments a node can hold: whatever make_argument builds, never a FunPtr. */
  predicate IsLiteral(a: Argument) {
    a.ptr.Some? || a == Argument(None, 0, 0)
  }

  type Literal = a: Argument | IsLiteral(a) witness Argument(None, 0, 0)

  lemma LiteralIsNotBackRef(a: Literal)
    ensures !IsBackRef(a) && !Classify(a).ArgFun?
  {
  }

  /** The C++ operand make_argument receives, by the overload it selects. */
  datatype Value =
    | NoValue                                       // make_argument()
    | Pod(display: string, width: nat)              // any plain type Tp
    | PodList(displays: seq<string>, width: nat)    // std::vector<Tp>
    | Str(text: string)                             // std::string, const char *
    | StrList(texts: seq<string>)                   // std::vector<std::string>

  /** What the C++ type system guarantees of an operand: sizeof >= 1, a vector fits in size_t. */
  predicate ValidValue(v: Value) {
    match v
    case Pod(_, w) => w > 0
    case PodList(ds, w) => w > 0 && |ds| < NPOS
    case _ => true
  }

  /** make_argument: one overload per operand type. */
  function MakeArgument(v: Value): (a: Literal)
    requires ValidValue(v)
    ensures v.NoValue? <==> Classify(a) == ArgNull
    ensures v.Pod? <==> Classify(a).ArgData?
    ensures v.PodList? <==> Classify(a).ArgVector?
    ensures (v.Str? || v.StrList?) <==> Classify(a).ArgString?
    ensures v.Pod? ==> a.size == v.width && Classify(a).shown == v.display
    ensures v.PodList? ==> a.size == v.width && a.nelem == |v.displays|
    ensures v.StrList? ==> a.nelem == |v.texts|
    ensures v.PodList? ==> Classify(a) == ArgVector("[" + Terminated(v.displays) + "]")
    ensures v.Str? ==> Classify(a) == ArgString("\"" + v.text + "\"")
    ensures v.StrList? ==> Classify(a) == ArgString("\"" + Join(v.texts) + "\"")
  {
    match v
    case NoValue => NullArg()
    case Pod(d, w) => DataArg(d, w)
    case PodList(ds, w) => VectorArg(ds, w)
    case Str(s) => StringArg(s)
    case StrList(ss) => SVectorArg(ss)
  }

  /** show(Argument): the kind word followed by the payload display or the target. */
  function Show(a: Argument): (r: string)
    ensures |r| >= 7 && r[..3] == "Arg"
    ensures r == "ArgNull" <==> Classify(a).ArgNull?
  {
    match Classify(a)
    case ArgNull => "ArgNull"
    case ArgData(s) => "ArgData " + s
    case ArgVector(s) => "ArgVector " + s
    case ArgString(s) => "ArgString " + s
    case ArgFun(k) => "ArgFun " + Decimal(k)
  }

  /** show() of a back-reference names its kind and prints a target that reads back unchanged. */
  lemma ShowFunPtrRoundTrip(k: nat)
    ensures |Show(FunPtr(k))| > 7 && Show(FunPtr(k))[..7] == "ArgFun "
    ensures forall i :: 7 <= i < |Show(FunPtr(k))| ==> IsDigit(Show(FunPtr(k))[i])
    ensures DecimalValue(Show(FunPtr(k))[7..]) == k
  {
    assert Show(FunPtr(k))[7..] == Decimal(k);
    DecimalRoundTrip(k);
  }

  /** pretty(Argument): the payload display, else "arg[size]" when size is set, else nothing. */
  function Pretty(a: Argument): (r: string)
    ensures a.ptr.None? && a.size != 0 ==> |r| > 5 && r[..4] == "arg[" && r[|r| - 1] == ']'
  {
    if a.ptr.Some? then ShowPayload(a.ptr.value)
    else if a.size != 0 then "arg[" + Decimal(a.size) + "]"
    else ""
  }

  /** With a payload, pretty prints exactly the text show prints after its kind word. */
  lemma PrettyIsShownPayload(a: Argument)
    requires a.ptr.Some?
    ensures Pretty(a) == Classify(a).shown
    ensures Show(a) == (if a.size == 0 then "ArgString " else if a.nelem == NPOS then "ArgData " else "ArgVector ") + Pretty(a)
  {
  }

  /** pretty renders nothing exactly for the null triple's kin and an empty scalar display. */
  lemma PrettyEmptyIff(a: Argument)
    ensures Pretty(a) == "" <==> (a.ptr.None? && a.size == 0) || a.ptr == Some(PodValue(""))
  {
    if a.ptr.Some? {
      match a.ptr.value
      case PodValue(d) =>
      case PodVector(ds) => assert Pretty(a)[0] == '[';
      case StringValue(t) => assert Pretty(a)[0] == '"';
    } else if a.size != 0 {
      assert Pretty(a)[0] == 'a';
    }
  }

  /** A back-reference pretty-prints as "arg[k]" and never empty. */
  lemma PrettyBackRef(k: nat)
    requires k > 0
    ensures Pretty(FunPtr(k)) == "arg[" + Decimal(k) + "]"
    ensures Pretty(FunPtr(k)) != ""
  {
  }

  // ---------------------------------------------------------------------------
  // SVector: joining with the separator, and reading the strings back

  /** The strings with SEPARATOR between neighbours, not after the last. */
  function Join(ss: seq<string>): (r: string)
    ensures |r| + 1 >= |ss|
  {
    if |ss| == 0 then ""
    else if |ss| == 1 then ss[0]
    else ss[0] + [SEPARATOR] + Join(ss[1..])
  }

  /** One separator between neighbours: one character shorter than every string followed by one blank. */
  lemma {:induction false} JoinLength(ss: seq<string>)
    requires |ss| >= 1
    ensures |Join(ss)| + 1 == |Terminated(ss)|
    decreases |ss|
  {
    assert [ss[0]][..0] == [];
    if |ss| > 1 {
      assert ss == [ss[0]] + ss[1..];
      TerminatedAppend([ss[0]], ss[1..]);
      JoinLength(ss[1..]);
    }
  }

  lemma {:induction false} JoinSnoc(ss: seq<string>, t: string)
    requires |ss| >= 1
    ensures Join(ss + [t]) == Join(ss) + [SEPARATOR] + t
    decreases |ss|
  {
    var st := ss + [t];
    if |ss| == 1 {
      assert st[1..] == [t];
    } else {
      assert st[1..] == ss[1..] + [t];
      JoinSnoc(ss[1..], t);
    }
  }

  /** The loop of Argument::SVector, which puts the separator before every string but the first. */
  method JoinRecords(svec: seq<string>) returns (str: string)
    ensures str == Join(svec)
  {
    str := "";
    var n := 0;
    for i := 0 to |svec|
      invariant n == i
      invariant str == Join(svec[..i])
    {
      if n != 0 {
        str := str + [SEPARATOR];
      }
      n := n + 1;
      str := str + svec[i];
      assert svec[..i + 1] == svec[..i] + [svec[i]];
      if i > 0 {
        JoinSnoc(svec[..i], svec[i]);
      }
    }
    assert svec[..|svec|] == svec;
  }

  /** Cutting a string at every SEPARATOR; the pieces the consumer of an SVector reads. */
  function Split(s: string): (r: seq<string>)
    ensures |r| >= 1
    decreases |s|
  {
    if |s| == 0 then [""]
    else
      var rest := Split(s[1..]);
      if s[0] == SEPARATOR then [""] + rest
      else [[s[0]] + rest[0]] + rest[1..]
  }

  lemma {:induction false} SplitPlain(x: string)
    requires SEPARATOR !in x
    ensures Split(x) == [x]
    decreases |x|
  {
    if |x| > 0 {
      SplitPlain(x[1..]);
      assert [x[0]] + x[1..] == x;
    }
  }

  lemma {:induction false} SplitAtSeparator(x: string, y: string)
    requires SEPARATOR !in x
    ensures Split(x + [SEPARATOR] + y) == [x] + Split(y)
    decreases |x|
  {
    var s := x + [SEPARATOR] + y;
    if |x| == 0 {
      assert s[1..] == y;
    } else {
      assert s[1..] == x[1..] + [SEPARATOR] + y;
      SplitAtSeparator(x[1..], y);
      assert [x[0]] + x[1..] == x;
    }
  }

  /** Decoding an SVector payload: the count tells an empty list from one empty string. */
  function SplitRecords(text: string, count: nat): seq<string>
  {
    if count == 0 then [] else Split(text)
  }

  lemma {:induction false} SplitJoin(ss: seq<string>)
    requires |ss| >= 1
    requires forall i :: 0 <= i < |ss| ==> SEPARATOR !in ss[i]
    ensures Split(Join(ss)) == ss
    decreases |ss|
  {
    if |ss| == 1 {
      SplitPlain(ss[0]);
    } else {
      SplitAtSeparator(ss[0], Join(ss[1..]));
      SplitJoin(ss[1..]);
      assert [ss[0]] + ss[1..] == ss;
    }
  }

  /** An SVector gives back exactly its strings, provided none contains the separator. */
  lemma SVectorRoundTrip(ss: seq<string>)
    requires forall i :: 0 <= i < |ss| ==> SEPARATOR !in ss[i]
    ensures SplitRecords(SVectorArg(ss).ptr.value.text, SVectorArg(ss).nelem) == ss
  {
    if |ss| > 0 {
      SplitJoin(ss);
    }
  }

  /** The loop of get_string(std::vector): "[" then each element and a blank, then "]". */
  method ShowVector(displays: seq<string>) returns (out: string)
    ensures out == ShowPayload(PodVector(displays))
  {
    out := "[";
    for i := 0 to |displays|
      invariant out == "[" + Terminated(displays[..i])
    {
      assert displays[..i + 1][..i] == displays[..i];
      out := out + displays[i] + " ";
    }
    assert displays[..|displays|] == displays;
    out := out + "]";
  }
}

=== FILE: descriptors.dfy ===
/**
 * FunctionDescr, the fixed-shape record the serializer emits (symbol, eight
 * argument slots, own index, continuation link), with the helpers that fill
 * its slots and patch its link.
 */
module Descriptors {
  import opened Wrappers
  import opened Text
  import opened Arguments

  /** -1UL: the link of a descriptor that has no continuation. */
  const TERMINAL: nat := 0xFFFF_FFFF_FFFF_FFFF

  /** std::array<Argument, 8>. */
  type ArgArray = s: seq<Argument> | |s| == 8 witness seq(8, _ => Argument(None, 0, 0))

  datatype Descr = Descr(symbol: string, args: ArgArray, index: nat, link: nat)

  /**
   * Brace-initialising the eight slots with the listed arguments: the slots
   * not listed are default-constructed Arguments, i.e. null.
   */
  function Slots(xs: seq<Argument>): (r: ArgArray)
    requires |xs| <= 8
    ensures r[..|xs|] == xs
    ensures forall i :: |xs| <= i < 8 ==> r[i] == NullArg()
  {
    xs + seq(8 - |xs|, _ => NullArg())
  }

  /**
   * make_array<Argument, 8> as written: its counter is never incremented, so
   * every element overwrites slot 0, which ends up holding the last one.
   */
  function PropertySlots(args: seq<Argument>): (r: ArgArray)
    ensures |args| == 0 ==> r == Slots([])
    ensures |args| > 0 ==> r[0] == args[|args| - 1]
    ensures forall i :: 1 <= i < 8 ==> r[i] == NullArg()
  {
    Slots(if |args| == 0 then [] else [args[|args| - 1]])
  }

  /** The loop of make_array, on a default-initialised std::array. */
  method MakeArray(cont: seq<Argument>) returns (ret: ArgArray)
    ensures ret == PropertySlots(cont)
  {
    var a := new Argument[8](_ => NullArg());
    var n := 0;
    var i := 0;
    while i < |cont|
      invariant 0 <= i <= |cont|
      invariant n == 0
      invariant a[..] == PropertySlots(cont[..i])
    {
      a[n] := cont[i];
      if n == 8 {
        break;
      }
      assert cont[..i + 1][i] == cont[i];
      i := i + 1;
    }
    assert cont[..|cont|] == cont;
    ret := a[..];
  }

  /**
   * fix_computation's effect: the last descriptor's link becomes TERMINAL,
   * every other descriptor and every other field stay as they were.
   */
  function Fixed(cont: seq<Descr>): (r: seq<Descr>)
    ensures |r| == |cont|
    ensures forall i :: 0 <= i < |cont| - 1 ==> r[i] == cont[i]
    ensures |cont| > 0 ==> r[|cont| - 1] == cont[|cont| - 1].(link := TERMINAL)
  {
    if |cont| == 0 then cont
    else cont[|cont| - 1 := cont[|cont| - 1].(link := TERMINAL)]
  }

  /** fix_computation, which patches the vector in place. */
  method FixComputation(cont: array<Descr>)
    modifies cont
    ensures cont[..] == Fixed(old(cont[..]))
  {
    if cont.Length > 0 {
      cont[cont.Length - 1] := cont[cont.Length - 1].(link := TERMINAL);
    }
  }

  /** The fix-up does nothing to an empty vector, and a second application changes nothing. */
  lemma FixedIdempotent(cont: seq<Descr>)
    ensures |cont| == 0 ==> Fixed(cont) == cont
    ensures Fixed(Fixed(cont)) == Fixed(cont)
  {
  }

  /** The fix-up is the identity exactly on the vectors that already end TERMINAL. */
  lemma FixedNoOpIff(cont: seq<Descr>)
    ensures Fixed(cont) == cont <==> |cont| == 0 || cont[|cont| - 1].link == TERMINAL
  {
    if |cont| > 0 && Fixed(cont) == cont {
      assert Fixed(cont)[|cont| - 1].link == TERMINAL;
    }
  }

  /** The show() text of each of the eight arguments. */
  function ArgTexts(args: ArgArray): seq<string>
  {
    seq(8, i requires 0 <= i < 8 => Show(args[i]))
  }

  /** show(FunctionDescr): symbol, the eight argument texts, index and link. */
  function DescrText(d: Descr): (r: string)
    ensures |r| > 14 + |d.symbol| && r[..14] == "FunctionDescr " && r[|r| - 1] == ')'
    ensures r[14..14 + |d.symbol|] == d.symbol
  {
    "FunctionDescr " + d.symbol + " [" + Terminated(ArgTexts(d.args)) + "] "
      + Decimal(d.index) + " " + Decimal(d.link) + ")"
  }

  /** The loop of show(FunctionDescr). */
  method ShowDescr(d: Descr) returns (out: string)
    ensures out == DescrText(d)
  {
    var texts := ArgTexts(d.args);
    var slots := "";
    for i := 0 to 8
      invariant slots == Terminated(texts[..i])
    {
      assert texts[..i + 1][..i] == texts[..i];
      slots := slots + Show(d.args[i]) + " ";
    }
    assert texts[..8] == texts;
    out := "FunctionDescr " + d.symbol + " [" + slots + "] " + Decimal(d.index) + " " + Decimal(d.link) + ")";
  }
}

=== FILE: nodes.dfy ===
/**
 * The typed node trees of the DSL. In C++ every node is its own struct and
 * static_asserts on the traits is_predicate, is_property and is_mfunction
 * keep each child slot to its family; here each family is one datatype, so a
 * slot typed Pred can only hold a predicate, and ill-typed trees cannot be
 * written at all.
 */
module Nodes {
  import opened Wrappers
  import opened Arguments

  /** Property: a symbol and any number of literal arguments. */
  datatype Prop = Property(symbol: string, args: seq<Literal>)

  /** The NetPredicate family. */
  datatype Pred =
    | Predicate0(symbol: string)
    | Predicate1(symbol: string, arg: Literal)
    | Predicate2(symbol: string, arg1: Literal, arg2: Literal)
    | Predicate3(symbol: string, arg1: Literal, arg2: Literal, arg3: Literal)
    | PredicateR(symbol: string, prop: Prop)
    | PredicateR1(symbol: string, prop: Prop, arg: Literal)
    | Combinator1(symbol: string, pred: Pred)
    | Combinator2(symbol: string, pred1: Pred, pred2: Pred)

  /** The NetFunction (monadic action) family, with Kleisli composition. */
  datatype Act =
    | MFunction0(symbol: string)
    | MFunction1(symbol: string, arg: Literal)
    | MFunction2(symbol: string, arg1: Literal, arg2: Literal)
    | MFunction3(symbol: string, arg1: Literal, arg2: Literal, arg3: Literal)
    | MFunction1P(symbol: string, arg: Literal, pred: Pred)
    | MFunctionP(symbol: string, pred: Pred)
    | MFunctionPF(symbol: string, pred: Pred, fun: Act)
    | MFunctionPFF(symbol: string, pred: Pred, fun1: Act, fun2: Act)
    | MFunctionF(symbol: string, fun: Act)
    | MFunctionFF(symbol: string, f: Act, g: Act)
    | Composition(f: Act, g: Act)

  /** The errors the DSL raises: pretty's logic_error, and a Kleisli mismatch (a compile error in C++). */
  datatype LangError = CombinatorInternalError | CompositionMismatch

  /** The packet state an action consumes and produces; the header only has SkBuff. */
  datatype StateType = SkBuff

  /** Function<Action<output>(input)>. */
  datatype Signature = Signature(input: StateType, output: StateType)

  /** NetFunction = Function<Action<SkBuff>(SkBuff)>, the type of every action struct. */
  const NetFunction: Signature := Signature(SkBuff, SkBuff)

  /** kleisly<Function<M<B>(A)>, Function<M<C>(B')>>: defined only when B == B', giving Function<M<C>(A)>. */
  function Kleisli(f: Signature, g: Signature): (r: Option<Signature>)
    ensures r.Some? <==> f.output == g.input
    ensures r.Some? ==> r.value.input == f.input && r.value.output == g.output
  {
    if f.output == g.input then Some(Signature(f.input, g.output)) else None
  }

  /** The `type` member of an action: NetFunction for every struct, the Kleisli type for a Composition. */
  function TypeOf(a: Act): (r: Option<Signature>)
    ensures !a.Composition? ==> r == Some(NetFunction)
    ensures r.Some? ==> r.value == NetFunction
  {
    match a
    case Composition(f, g) =>
      var tf := TypeOf(f);
      var tg := TypeOf(g);
      if tf.Some? && tg.Some? then Kleisli(tf.value, tg.value) else None
    case _ => Some(NetFunction)
  }

  /** Every action the header can build has type NetFunction, so every Composition type-checks. */
  lemma {:induction false} EveryActionIsNetFunction(a: Act)
    ensures TypeOf(a) == Some(NetFunction)
  {
    match a
    case Composition(f, g) =>
      EveryActionIsNetFunction(f);
      EveryActionIsNetFunction(g);
    case _ =>
  }

  /** operator>> (">->"): builds the Composition only when the Kleisli type exists. */
  function Compose(f: Act, g: Act): (r: Result<Act, LangError>)
    ensures r.Ok? <==> TypeOf(f).Some? && TypeOf(g).Some? && TypeOf(f).value.output == TypeOf(g).value.input
    ensures r.Ok? ==> r.value == Composition(f, g)
                      && TypeOf(r.value) == Some(Signature(TypeOf(f).value.input, TypeOf(g).value.output))
    ensures r.Err? ==> r.error == CompositionMismatch
  {
    var tf := TypeOf(f);
    var tg := TypeOf(g);
    if tf.Some? && tg.Some? && Kleisli(tf.value, tg.value).Some? then Ok(Composition(f, g))
    else Err(CompositionMismatch)
  }

  /** With a single state type, composing two actions never fails. */
  lemma ComposeAlwaysSucceeds(f: Act, g: Act)
    ensures Compose(f, g) == Ok(Composition(f, g))
  {
    EveryActionIsNetFunction(f);
    EveryActionIsNetFunction(g);
  }

  /** The actions composed left to right, ((a0 >-> a1) >-> a2) ..., as successive operator>> build it. */
  function Chain(cont: seq<Act>): Act
    requires |cont| >= 1
  {
    if |cont| == 1 then cont[0] else Composition(Chain(cont[..|cont| - 1]), cont[|cont| - 1])
  }
}

=== FILE: pretty.dfy ===
/**
 * The pretty() overloads of lang.hpp: every node is rendered as an
 * s-expression "(symbol child child ...)", a bare symbol when it has no
 * children, the combinators "not", "or", "and", "xor" as the operators
 * "!", "|", "&", "^", and a Composition as "f >-> g". A combinator with any
 * other symbol makes pretty throw std::logic_error, modelled as an Err.
 */
module Pretty {
  import opened Wrappers
  import opened Arguments
  import opened Nodes

  // ---------------------------------------------------------------------------
  // Rendering

  /** The children each preceded by one blank: " c1 c2 ...". */
  function SpaceJoin(parts: seq<string>): string
    decreases |parts|
  {
    if |parts| == 0 then "" else SpaceJoin(parts[..|parts| - 1]) + " " + parts[|parts| - 1]
  }

  /** The s-expression of a node with at least one child. */
  function Node(symbol: string, parts: seq<string>): string
  {
    "(" + symbol + SpaceJoin(parts) + ")"
  }

  /** The argument renderings of a Property, concatenated with no separator. */
  function RenderArgs(args: seq<Argument>): string
    decreases |args|
  {
    if |args| == 0 then "" else RenderArgs(args[..|args| - 1]) + Arguments.Pretty(args[|args| - 1])
  }

  /** Rendering one more argument appends its rendering, which adds nothing when it is empty. */
  lemma RenderArgsSnoc(args: seq<Argument>, i: nat, prefix: string)
    requires i < |args|
    ensures var t := Arguments.Pretty(args[i]);
      prefix + RenderArgs(args[..i + 1]) == (if t != "" then prefix + RenderArgs(args[..i]) + t else prefix + RenderArgs(args[..i]))
  {
    assert args[..i + 1][..i] == args[..i];
  }

  /** pretty(Property): the bare symbol, or "(symbol " followed by every argument rendering and ")". */
  function PrettyProp(p: Prop): (r: string)
    ensures |p.args| == 0 ==> r == p.symbol
    ensures |p.args| > 0 ==> |r| >= |p.symbol| + 3 && r[0] == '(' && r[1..|p.symbol| + 1] == p.symbol && r[|r| - 1] == ')'
  {
    if |p.args| == 0 then p.symbol else Node(p.symbol, [RenderArgs(p.args)])
  }

  /** With arguments, one blank after the symbol and the renderings run together. */
  lemma PropertyLayout(p: Prop)
    requires |p.args| > 0
    ensures PrettyProp(p) == "(" + p.symbol + " " + RenderArgs(p.args) + ")"
  {
    assert SpaceJoin([RenderArgs(p.args)]) == " " + RenderArgs(p.args);
  }

  /** The loop of pretty(Property), which appends only the non-empty renderings. */
  method PrettyProperty(p: Prop) returns (out: string)
    ensures out == PrettyProp(p)
  {
    if |p.args| == 0 {
      return p.symbol;
    }
    out := "(" + p.symbol + " ";
    for i := 0 to |p.args|
      invariant out == "(" + p.symbol + " " + RenderArgs(p.args[..i])
    {
      var t := Arguments.Pretty(p.args[i]);
      RenderArgsSnoc(p.args, i, "(" + p.symbol + " ");
      if t != "" {
        out := out + t;
      }
    }
    assert p.args[..|p.args|] == p.args;
    PropertyLayout(p);
    out := out + ")";
  }

  /** Every combinator in the predicate carries one of the symbols pretty knows. */
  predicate ValidPred(p: Pred)
  {
    match p
    case Combinator1(s, q) => s == "not" && ValidPred(q)
    case Combinator2(s, q1, q2) => (s == "or" || s == "and" || s == "xor") && ValidPred(q1) && ValidPred(q2)
    case _ => true
  }

  /** Every combinator in the predicates embedded in the action is valid. */
  predicate ValidAct(a: Act)
  {
    match a
    case MFunction1P(_, _, p) => ValidPred(p)
    case MFunctionP(_, p) => ValidPred(p)
    case MFunctionPF(_, p, f) => ValidPred(p) && ValidAct(f)
    case MFunctionPFF(_, p, f, g) => ValidPred(p) && ValidAct(f) && ValidAct(g)
    case MFunctionF(_, f) => ValidAct(f)
    case MFunctionFF(_, f, g) => ValidAct(f) && ValidAct(g)
    case Composition(f, g) => ValidAct(f) && ValidAct(g)
    case _ => true
  }

  /** The binary operator pretty writes for a Combinator2 symbol. */
  function Operator(s: string): Option<string>
  {
    if s == "or" then Some(" | ")
    else if s == "and" then Some(" & ")
    else if s == "xor" then Some(" ^ ")
    else None
  }

  /** pretty of a predicate: Ok exactly when no combinator carries an unknown symbol. */
  function PrettyPred(p: Pred): (r: Result<string, LangError>)
    ensures r.Ok? <==> ValidPred(p)
    ensures r.Err? ==> r.error == CombinatorInternalError
    decreases p, 1
  {
    match p
    case Predicate0(s) => Ok(s)
    case Predicate1(s, x) => Ok(Node(s, [Arguments.Pretty(x)]))
    case Predicate2(s, x, y) => Ok(Node(s, [Arguments.Pretty(x), Arguments.Pretty(y)]))
    case Predicate3(s, x, y, z) => Ok(Node(s, [Arguments.Pretty(x), Arguments.Pretty(y), Arguments.Pretty(z)]))
    case PredicateR(s, q) => Ok(Node(s, [PrettyProp(q)]))
    case PredicateR1(s, q, x) => Ok(Node(s, [PrettyProp(q), Arguments.Pretty(x)]))
    case Combinator1(s, q) => PrettyCombinator1(s, q)
    case Combinator2(s, q1, q2) => PrettyCombinator2(s, q1, q2)
  }

  /** pretty(Combinator1): "!" before the operand, and only for the symbol "not". */
  function PrettyCombinator1(s: string, q: Pred): (r: Result<string, LangError>)
    ensures r.Ok? <==> ValidPred(Combinator1(s, q))
    ensures r.Err? ==> r.error == CombinatorInternalError
    decreases Combinator1(s, q), 0
  {
    if s == "not" then
      var t :- PrettyPred(q);
      Ok("!" + t)
    else Err(CombinatorInternalError)
  }

  /** pretty(Combinator2): both operands around the operator, in parentheses. */
  function PrettyCombinator2(s: string, q1: Pred, q2: Pred): (r: Result<string, LangError>)
    ensures r.Ok? <==> ValidPred(Combinator2(s, q1, q2))
    ensures r.Err? ==> r.error == CombinatorInternalError
    decreases Combinator2(s, q1, q2), 0
  {
    var op := Operator(s);
    if op.Some? then
      var t1 :- PrettyPred(q1);
      var t2 :- PrettyPred(q2);
      Ok("(" + t1 + op.value + t2 + ")")
    else Err(CombinatorInternalError)
  }

  /** pretty of an action: Ok exactly when every embedded predicate renders. */
  function PrettyAct(a: Act): (r: Result<string, LangError>)
    ensures r.Ok? <==> ValidAct(a)
    ensures r.Err? ==> r.error == CombinatorInternalError
    decreases a, 1
  {
    match a
    case MFunction0(s) => Ok(s)
    case MFunction1(s, x) => Ok(Node(s, [Arguments.Pretty(x)]))
    case MFunction2(s, x, y) => Ok(Node(s, [Arguments.Pretty(x), Arguments.Pretty(y)]))
    case MFunction3(s, x, y, z) => Ok(Node(s, [Arguments.Pretty(x), Arguments.Pretty(y), Arguments.Pretty(z)]))
    case MFunction1P(s, x, p) => PrettyMFunction1P(s, x, p)
    case MFunctionP(s, p) => PrettyMFunctionP(s, p)
    case MFunctionPF(s, p, f) => PrettyMFunctionPF(s, p, f)
    case MFunctionPFF(s, p, f, g) => PrettyMFunctionPFF(s, p, f, g)
    case MFunctionF(s, f) => PrettyMFunctionF(s, f)
    case MFunctionFF(s, f, g) => PrettyMFunctionFF(s, f, g)
    case Composition(f, g) => PrettyComposition(f, g)
  }

  /** pretty(MFunction1P): the literal, then the predicate. */
  function PrettyMFunction1P(s: string, x: Literal, p: Pred): (r: Result<string, LangError>)
    ensures r.Ok? <==> ValidPred(p)
    ensures r.Err? ==> r.error == CombinatorInternalError
  {
    var tp :- PrettyPred(p);
    Ok(Node(s, [Arguments.Pretty(x), tp]))
  }

  /** pretty(MFunctionP): the predicate. */
  function PrettyMFunctionP(s: string, p: Pred): (r: Result<string, LangError>)
    ensures r.Ok? <==> ValidPred(p)
    ensures r.Err? ==> r.error == CombinatorInternalError
  {
    var tp :- PrettyPred(p);
    Ok(Node(s, [tp]))
  }

  /** pretty(MFunctionPF): the predicate, then the action. */
  function PrettyMFunctionPF(s: string, p: Pred, f: Act): (r: Result<string, LangError>)
    ensures r.Ok? <==> ValidPred(p) && ValidAct(f)
    ensures r.Err? ==> r.error == CombinatorInternalError
    decreases MFunctionPF(s, p, f), 0
  {
    var tp :- PrettyPred(p);
    var tf :- PrettyAct(f);
    Ok(Node(s, [tp, tf]))
  }

  /** pretty(MFunctionPFF): the predicate, then both actions. */
  function PrettyMFunctionPFF(s: string, p: Pred, f: Act, g: Act): (r: Result<string, LangError>)
    ensures r.Ok? <==> ValidPred(p) && ValidAct(f) && ValidAct(g)
    ensures r.Err? ==> r.error == CombinatorInternalError
    decreases MFunctionPFF(s, p, f, g), 0
  {
    var tp :- PrettyPred(p);
    var tf :- PrettyAct(f);
    var tg :- PrettyAct(g);
    Ok(Node(s, [tp, tf, tg]))
  }

  /** pretty(MFunctionF): the inner action. */
  function PrettyMFunctionF(s: string, f: Act): (r: Result<string, LangError>)
    ensures r.Ok? <==> ValidAct(f)
    ensures r.Err? ==> r.error == CombinatorInternalError
    decreases MFunctionF(s, f), 0
  {
    var tf :- PrettyAct(f);
    Ok(Node(s, [tf]))
  }

  /** pretty(MFunctionFF): both inner actions. */
  function PrettyMFunctionFF(s: string, f: Act, g: Act): (r: Result<string, LangError>)
    ensures r.Ok? <==> ValidAct(f) && ValidAct(g)
    ensures r.Err? ==> r.error == CombinatorInternalError
    decreases MFunctionFF(s, f, g), 0
  {
    var tf :- PrettyAct(f);
    var tg :- PrettyAct(g);
    Ok(Node(s, [tf, tg]))
  }

  /** pretty(Composition): "f >-> g", failing as soon as either side does. */
  function PrettyComposition(f: Act, g: Act): (r: Result<string, LangError>)
    ensures r.Ok? <==> ValidAct(f) && ValidAct(g)
    ensures r.Err? ==> r.error == CombinatorInternalError
    decreases Composition(f, g), 0
  {
    var tf :- PrettyAct(f);
    var tg :- PrettyAct(g);
    Ok(tf + " >-> " + tg)
  }
}

=== FILE: pretty_properties.dfy ===
/**
 * What pretty() guarantees: the rendering of a tree is a well-bracketed
 * s-expression whenever its symbols and argument renderings hold no
 * parenthesis, Composition renders the same however it is nested, and a
 * chain of actions renders as its members joined by " >-> ".
 */
module PrettyProperties {
  import opened Wrappers
  import opened Arguments
  import opened Nodes
  import opened Pretty

  // ---------------------------------------------------------------------------
  // Bracket balance

  function Delta(c: char): int
  {
    if c == '(' then 1 else if c == ')' then -1 else 0
  }

  /** Opening minus closing parentheses. */
  function Net(s: string): int
    decreases |s|
  {
    if |s| == 0 then 0 else Net(s[..|s| - 1]) + Delta(s[|s| - 1])
  }

  /** Every prefix opens at least as often as it closes, and the whole closes all it opens. */
  predicate Balanced(s: string)
  {
    Net(s) == 0 && forall i :: 0 <= i <= |s| ==> Net(s[..i]) >= 0
  }

  predicate ParenFree(s: string)
  {
    forall i :: 0 <= i < |s| ==> s[i] != '(' && s[i] != ')'
  }

  lemma {:induction false} NetAppend(a: string, b: string)
    ensures Net(a + b) == Net(a) + Net(b)
    decreases |b|
  {
    if |b| == 0 {
      assert a + b == a;
    } else {
      assert (a + b)[..|a + b| - 1] == a + b[..|b| - 1];
      NetAppend(a, b[..|b| - 1]);
    }
  }

  lemma {:induction false} ParenFreeNet(s: string)
    requires ParenFree(s)
    ensures Net(s) == 0
    decreases |s|
  {
    if |s| > 0 {
      ParenFreeNet(s[..|s| - 1]);
    }
  }

  lemma ParenFreeBalanced(s: string)
    requires ParenFree(s)
    ensures Balanced(s)
  {
    forall i | 0 <= i <= |s|
      ensures Net(s[..i]) >= 0
    {
      ParenFreeNet(s[..i]);
    }
    ParenFreeNet(s);
  }

  lemma BalancedAppend(a: string, b: string)
    requires Balanced(a) && Balanced(b)
    ensures Balanced(a + b)
  {
    NetAppend(a, b);
    forall i | 0 <= i <= |a + b|
      ensures Net((a + b)[..i]) >= 0
    {
      if i <= |a| {
        assert (a + b)[..i] == a[..i];
      } else {
        assert (a + b)[..i] == a + b[..i - |a|];
        NetAppend(a, b[..i - |a|]);
      }
    }
  }

  lemma BalancedWrap(a: string)
    requires Balanced(a)
    ensures Balanced("(" + a + ")")
  {
    var w := "(" + a + ")";
    NetAppend("(" + a, ")");
    NetAppend("(", a);
    assert Net("(") == 1 by { assert "("[..0] == []; }
    assert Net(")") == -1 by { assert ")"[..0] == []; }
    forall i | 0 <= i <= |w|
      ensures Net(w[..i]) >= 0
    {
      if i == 0 {
      } else if i <= |a| + 1 {
        assert w[..i] == "(" + a[..i - 1];
        NetAppend("(", a[..i - 1]);
      } else {
        assert w[..i] == w;
      }
    }
  }

  lemma {:induction false} SpaceJoinBalanced(parts: seq<string>)
    requires forall i :: 0 <= i < |parts| ==> Balanced(parts[i])
    ensures Balanced(SpaceJoin(parts))
    decreases |parts|
  {
    if |parts| == 0 {
      ParenFreeBalanced("");
    } else {
      SpaceJoinBalanced(parts[..|parts| - 1]);
      ParenFreeBalanced(" ");
      BalancedAppend(SpaceJoin(parts[..|parts| - 1]), " ");
      BalancedAppend(SpaceJoin(parts[..|parts| - 1]) + " ", parts[|parts| - 1]);
    }
  }

  lemma NodeBalanced(symbol: string, parts: seq<string>)
    requires ParenFree(symbol)
    requires forall i :: 0 <= i < |parts| ==> Balanced(parts[i])
    ensures Balanced(Node(symbol, parts))
  {
    ParenFreeBalanced(symbol);
    SpaceJoinBalanced(parts);
    BalancedAppend(symbol, SpaceJoin(parts));
    BalancedWrap(symbol + SpaceJoin(parts));
    assert Node(symbol, parts) == "(" + (symbol + SpaceJoin(parts)) + ")";
  }

  /** A binary rendering "a op b", as for a Combinator2 body or a Composition. */
  lemma InfixBalanced(a: string, op: string, b: string)
    requires Balanced(a) && ParenFree(op) && Balanced(b)
    ensures Balanced(a + op + b)
  {
    ParenFreeBalanced(op);
    BalancedAppend(a, op);
    BalancedAppend(a + op, b);
  }

  // ---------------------------------------------------------------------------
  // Trees whose symbols and argument renderings hold no parenthesis

  predicate PlainArg(x: Argument)
  {
    ParenFree(Arguments.Pretty(x))
  }

  predicate PlainProp(p: Prop)
  {
    ParenFree(p.symbol) && forall i :: 0 <= i < |p.args| ==> PlainArg(p.args[i])
  }

  predicate PlainPred(p: Pred)
  {
    match p
    case Predicate0(s) => ParenFree(s)
    case Predicate1(s, x) => ParenFree(s) && PlainArg(x)
    case Predicate2(s, x, y) => ParenFree(s) && PlainArg(x) && PlainArg(y)
    case Predicate3(s, x, y, z) => ParenFree(s) && PlainArg(x) && PlainArg(y) && PlainArg(z)
    case PredicateR(s, q) => ParenFree(s) && PlainProp(q)
    case PredicateR1(s, q, x) => ParenFree(s) && PlainProp(q) && PlainArg(x)
    case Combinator1(_, q) => PlainPred(q)
    case Combinator2(_, q1, q2) => PlainPred(q1) && PlainPred(q2)
  }

  predicate PlainAct(a: Act)
  {
    match a
    case MFunction0(s) => ParenFree(s)
    case MFunction1(s, x) => ParenFree(s) && PlainArg(x)
    case MFunction2(s, x, y) => ParenFree(s) && PlainArg(x) && PlainArg(y)
    case MFunction3(s, x, y, z) => ParenFree(s) && PlainArg(x) && PlainArg(y) && PlainArg(z)
    case MFunction1P(s, x, p) => ParenFree(s) && PlainArg(x) && PlainPred(p)
    case MFunctionP(s, p) => ParenFree(s) && PlainPred(p)
    case MFunctionPF(s, p, f) => ParenFree(s) && PlainPred(p) && PlainAct(f)
    case MFunctionPFF(s, p, f, g) => ParenFree(s) && PlainPred(p) && PlainAct(f) && PlainAct(g)
    case MFunctionF(s, f) => ParenFree(s) && PlainAct(f)
    case MFunctionFF(s, f, g) => ParenFree(s) && PlainAct(f) && PlainAct(g)
    case Composition(f, g) => PlainAct(f) && PlainAct(g)
  }

  lemma {:induction false} RenderArgsParenFree(args: seq<Argument>)
    requires forall i :: 0 <= i < |args| ==> PlainArg(args[i])
    ensures ParenFree(RenderArgs(args))
    decreases |args|
  {
    if |args| > 0 {
      RenderArgsParenFree(args[..|args| - 1]);
    }
  }

  /** A plain property renders to a balanced string. */
  lemma PropBalanced(p: Prop)
    requires PlainProp(p)
    ensures Balanced(PrettyProp(p))
  {
    if |p.args| == 0 {
      ParenFreeBalanced(p.symbol);
    } else {
      RenderArgsParenFree(p.args);
      ParenFreeBalanced(RenderArgs(p.args));
      NodeBalanced(p.symbol, [RenderArgs(p.args)]);
    }
  }

  /** Leaf nodes: the s-expression of a symbol and literal renderings. */
  lemma LiteralsBalanced(s: string, parts: seq<string>)
    requires ParenFree(s) && forall i :: 0 <= i < |parts| ==> ParenFree(parts[i])
    ensures Balanced(Node(s, parts))
  {
    forall i | 0 <= i < |parts|
      ensures Balanced(parts[i])
    {
      ParenFreeBalanced(parts[i]);
    }
    NodeBalanced(s, parts);
  }

  /** Whenever pretty succeeds on a plain predicate, its rendering is a well-bracketed s-expression. */
  lemma {:induction false} PredBalanced(p: Pred)
    requires PlainPred(p) && ValidPred(p)
    ensures Balanced(PrettyPred(p).value)
    decreases p
  {
    match p
    case Combinator1(s, q) =>
      PredBalanced(q);
      NotBalanced(s, q);
    case Combinator2(s, q1, q2) =>
      PredBalanced(q1);
      PredBalanced(q2);
      BinaryBalanced(s, q1, q2);
    case _ =>
      LeafPredBalanced(p);
  }

  /** The predicates without a predicate child: symbol, literals and properties. */
  lemma LeafPredBalanced(p: Pred)
    requires !p.Combinator1? && !p.Combinator2? && PlainPred(p)
    ensures Balanced(PrettyPred(p).value)
  {
    match p
    case Predicate0(s) =>
      ParenFreeBalanced(s);
    case Predicate1(s, x) =>
      LiteralsBalanced(s, [Arguments.Pretty(x)]);
    case Predicate2(s, x, y) =>
      LiteralsBalanced(s, [Arguments.Pretty(x), Arguments.Pretty(y)]);
    case Predicate3(s, x, y, z) =>
      LiteralsBalanced(s, [Arguments.Pretty(x), Arguments.Pretty(y), Arguments.Pretty(z)]);
    case PredicateR(s, q) =>
      PropBalanced(q);
      NodeBalanced(s, [PrettyProp(q)]);
    case PredicateR1(s, q, x) =>
      PropBalanced(q);
      ParenFreeBalanced(Arguments.Pretty(x));
      NodeBalanced(s, [PrettyProp(q), Arguments.Pretty(x)]);
  }

  lemma NotBalanced(s: string, q: Pred)
    requires ValidPred(Combinator1(s, q)) && Balanced(PrettyPred(q).value)
    ensures Balanced(PrettyPred(Combinator1(s, q)).value)
  {
    ParenFreeBalanced("!");
    BalancedAppend("!", PrettyPred(q).value);
  }

  lemma BinaryBalanced(s: string, q1: Pred, q2: Pred)
    requires ValidPred(Combinator2(s, q1, q2)) && Balanced(PrettyPred(q1).value) && Balanced(PrettyPred(q2).value)
    ensures Balanced(PrettyPred(Combinator2(s, q1, q2)).value)
  {
    CombinatorBalanced(s, PrettyPred(q1).value, PrettyPred(q2).value);
  }

  lemma CombinatorBalanced(s: string, t1: string, t2: string)
    requires Operator(s).Some? && Balanced(t1) && Balanced(t2)
    ensures Balanced("(" + t1 + Operator(s).value + t2 + ")")
  {
    var op := Operator(s).value;
    assert ParenFree(op) by {
      assert op == " | " || op == " & " || op == " ^ ";
    }
    InfixBalanced(t1, op, t2);
    BalancedWrap(t1 + op + t2);
    assert "(" + t1 + op + t2 + ")" == "(" + (t1 + op + t2) + ")";
  }

  /** Whenever pretty succeeds on a plain action, its rendering is a well-bracketed s-expression. */
  lemma {:induction false} ActBalanced(a: Act)
    requires PlainAct(a) && ValidAct(a)
    ensures Balanced(PrettyAct(a).value)
    decreases a, 2
  {
    if a.MFunction0? || a.MFunction1? || a.MFunction2? || a.MFunction3? {
      LeafActBalanced(a);
    } else if a.Composition? {
      ActBalanced(a.f);
      ActBalanced(a.g);
      ComposedBalanced(a.f, a.g);
    } else {
      WrapperActBalanced(a);
    }
  }

  /** The six wrapper nodes: the children are balanced, hence so is the node around them. */
  lemma {:induction false} WrapperActBalanced(a: Act)
    requires !(a.MFunction0? || a.MFunction1? || a.MFunction2? || a.MFunction3? || a.Composition?)
    requires PlainAct(a) && ValidAct(a)
    ensures Balanced(PrettyAct(a).value)
    decreases a, 1
  {
    if a.MFunctionF? || a.MFunctionFF? {
      NestingActBalanced(a);
    } else {
      GuardingActBalanced(a);
    }
  }

  /** MFunction1P, MFunctionP, MFunctionPF and MFunctionPFF: wrappers around a predicate. */
  lemma {:induction false} GuardingActBalanced(a: Act)
    requires a.MFunction1P? || a.MFunctionP? || a.MFunctionPF? || a.MFunctionPFF?
    requires PlainAct(a) && ValidAct(a)
    ensures Balanced(PrettyAct(a).value)
    decreases a, 0
  {
    match a
    case MFunction1P(s, x, p) =>
      PredBalanced(p);
      GuardedBalanced(s, x, p);
    case MFunctionP(s, p) =>
      PredBalanced(p);
      FilteredBalanced(s, p);
    case MFunctionPF(s, p, f) =>
      PredBalanced(p);
      ActBalanced(f);
      FilterBalanced(s, p, f);
    case MFunctionPFF(s, p, f, g) =>
      PredBalanced(p);
      ActBalanced(f);
      ActBalanced(g);
      BranchBalanced(s, p, f, g);
  }

  /** MFunctionF and MFunctionFF: wrappers around actions only. */
  lemma {:induction false} NestingActBalanced(a: Act)
    requires a.MFunctionF? || a.MFunctionFF?
    requires PlainAct(a) && ValidAct(a)
    ensures Balanced(PrettyAct(a).value)
    decreases a, 0
  {
    match a
    case MFunctionF(s, f) =>
      ActBalanced(f);
      NestedBalanced(s, f);
    case MFunctionFF(s, f, g) =>
      ActBalanced(f);
      ActBalanced(g);
      PairBalanced(s, f, g);
  }

  lemma LeafActBalanced(a: Act)
    requires a.MFunction0? || a.MFunction1? || a.MFunction2? || a.MFunction3?
    requires PlainAct(a)
    ensures Balanced(PrettyAct(a).value)
  {
    match a
    case MFunction0(s) =>
      ParenFreeBalanced(s);
    case MFunction1(s, x) =>
      LiteralsBalanced(s, [Arguments.Pretty(x)]);
    case MFunction2(s, x, y) =>
      LiteralsBalanced(s, [Arguments.Pretty(x), Arguments.Pretty(y)]);
    case MFunction3(s, x, y, z) =>
      LiteralsBalanced(s, [Arguments.Pretty(x), Arguments.Pretty(y), Arguments.Pretty(z)]);
  }

  lemma GuardedBalanced(s: string, x: Literal, p: Pred)
    requires ParenFree(s) && PlainArg(x) && ValidPred(p) && Balanced(PrettyPred(p).value)
    ensures Balanced(PrettyAct(MFunction1P(s, x, p)).value)
  {
    ParenFreeBalanced(Arguments.Pretty(x));
    NodeBalanced(s, [Arguments.Pretty(x), PrettyPred(p).value]);
  }

  lemma FilteredBalanced(s: string, p: Pred)
    requires ParenFree(s) && ValidPred(p) && Balanced(PrettyPred(p).value)
    ensures Balanced(PrettyAct(MFunctionP(s, p)).value)
  {
    NodeBalanced(s, [PrettyPred(p).value]);
  }

  lemma FilterBalanced(s: string, p: Pred, f: Act)
    requires ParenFree(s) && ValidPred(p) && ValidAct(f)
    requires Balanced(PrettyPred(p).value) && Balanced(PrettyAct(f).value)
    ensures Balanced(PrettyAct(MFunctionPF(s, p, f)).value)
  {
    NodeBalanced(s, [PrettyPred(p).value, PrettyAct(f).value]);
  }

  lemma BranchBalanced(s: string, p: Pred, f: Act, g: Act)
    requires ParenFree(s) && ValidPred(p) && ValidAct(f) && ValidAct(g)
    requires Balanced(PrettyPred(p).value) && Balanced(PrettyAct(f).value) && Balanced(PrettyAct(g).value)
    ensures Balanced(PrettyAct(MFunctionPFF(s, p, f, g)).value)
  {
    var parts := [PrettyPred(p).value, PrettyAct(f).value, PrettyAct(g).value];
    assert PrettyAct(MFunctionPFF(s, p, f, g)) == Ok(Node(s, parts));
    NodeBalanced(s, parts);
  }

  lemma NestedBalanced(s: string, f: Act)
    requires ParenFree(s) && ValidAct(f) && Balanced(PrettyAct(f).value)
    ensures Balanced(PrettyAct(MFunctionF(s, f)).value)
  {
    NodeBalanced(s, [PrettyAct(f).value]);
  }

  lemma PairBalanced(s: string, f: Act, g: Act)
    requires ParenFree(s) && ValidAct(f) && ValidAct(g)
    requires Balanced(PrettyAct(f).value) && Balanced(PrettyAct(g).value)
    ensures Balanced(PrettyAct(MFunctionFF(s, f, g)).value)
  {
    NodeBalanced(s, [PrettyAct(f).value, PrettyAct(g).value]);
  }

  lemma ComposedBalanced(f: Act, g: Act)
    requires ValidAct(f) && ValidAct(g)
    requires Balanced(PrettyAct(f).value) && Balanced(PrettyAct(g).value)
    ensures Balanced(PrettyAct(Composition(f, g)).value)
  {
    CompositionRenders(f, g);
    assert ParenFree(" >-> ");
    InfixBalanced(PrettyAct(f).value, " >-> ", PrettyAct(g).value);
  }

  // ---------------------------------------------------------------------------
  // Composition

  /** f >-> g renders both sides around the arrow, and fails as soon as either side does. */
  lemma CompositionRenders(f: Act, g: Act)
    ensures PrettyAct(Composition(f, g))
         == if PrettyAct(f).Ok? && PrettyAct(g).Ok? then Ok(PrettyAct(f).value + " >-> " + PrettyAct(g).value)
            else Err(CombinatorInternalError)
  {
  }

  /** (f >-> g) >-> h and f >-> (g >-> h) render identically, success and failure alike. */
  lemma CompositionPrettyAssociative(f: Act, g: Act, h: Act)
    ensures PrettyAct(Composition(Composition(f, g), h)) == PrettyAct(Composition(f, Composition(g, h)))
  {
    CompositionRenders(f, g);
    CompositionRenders(g, h);
    CompositionRenders(Composition(f, g), h);
    CompositionRenders(f, Composition(g, h));
    if PrettyAct(f).Ok? && PrettyAct(g).Ok? && PrettyAct(h).Ok? {
      var a, b, c := PrettyAct(f).value, PrettyAct(g).value, PrettyAct(h).value;
      assert (a + " >-> " + b) + " >-> " + c == a + " >-> " + (b + " >-> " + c);
    }
  }

  /** The members' renderings joined by " >-> ". */
  function Arrows(ts: seq<string>): string
    requires |ts| >= 1
  {
    if |ts| == 1 then ts[0] else Arrows(ts[..|ts| - 1]) + " >-> " + ts[|ts| - 1]
  }

  /** A chain of actions renders as its members joined by " >-> ". */
  lemma {:induction false} ChainPretty(cont: seq<Act>, ts: seq<string>)
    requires |cont| == |ts| >= 1
    requires forall i :: 0 <= i < |cont| ==> PrettyAct(cont[i]) == Ok(ts[i])
    ensures PrettyAct(Chain(cont)) == Ok(Arrows(ts))
    decreases |cont|
  {
    if |cont| > 1 {
      ChainPretty(cont[..|cont| - 1], ts[..|ts| - 1]);
    }
  }

  // ---------------------------------------------------------------------------
  // Worked examples

  lemma SpaceJoinOne(t: string)
    ensures SpaceJoin([t]) == " " + t
  {
    assert [t][..0] == [];
  }

  /** is_ip & has_port 80. */
  lemma IsIpAndHasPort()
    ensures PrettyPred(Combinator2("and", Predicate0("is_ip"), Predicate1("has_port", DataArg("80", 4))))
         == Ok("(is_ip & (has_port 80))")
  {
    HasPort80();
    assert Operator("and") == Some(" & ");
    assert "(" + "is_ip" + " & " + "(has_port 80)" + ")" == "(is_ip & (has_port 80))";
  }

  lemma HasPort80()
    ensures PrettyPred(Predicate1("has_port", DataArg("80", 4))) == Ok("(has_port 80)")
  {
    assert Arguments.Pretty(DataArg("80", 4)) == "80";
    SpaceJoinOne("80");
    assert Node("has_port", ["80"]) == "(" + "has_port" + " 80" + ")";
    assert "(" + "has_port" + " 80" + ")" == "(has_port 80)";
  }

  /** The arguments of a Property are rendered back to back, without a blank between them. */
  lemma PropertyArgumentsAdjacent()
    ensures PrettyProp(Property("p", [DataArg("1", 4), DataArg("2", 4)])) == "(p 12)"
  {
    var args: seq<Argument> := [DataArg("1", 4), DataArg("2", 4)];
    assert args[..1] == [DataArg("1", 4)] && args[..1][..0] == [];
    assert RenderArgs(args) == "12";
    SpaceJoinOne("12");
  }
}

=== FILE: serializer.dfy ===
/**
 * serialize(): the pre-order linearisation of a node tree into
 * FunctionDescr records. A node serialized at n gets index n, its children
 * follow it in order, wrappers point at their children with FunPtr(start of
 * child), and action children embedded in a wrapper have their last link
 * forced to TERMINAL.
 */
module Serializer {
  import opened Wrappers
  import opened Arguments
  import opened Descriptors
  import opened Nodes

  /** std::pair<std::vector<FunctionDescr>, std::size_t>: the code and the next free index. */
  datatype Serialized = Serialized(code: seq<Descr>, next: nat)

  /** Each descriptor's index is its position, counted from n. */
  predicate Numbered(code: seq<Descr>, n: nat) {
    forall i :: 0 <= i < |code| ==> code[i].index == n + i
  }

  /** A non-empty block of code whose next free index is n plus its length. */
  predicate Sized(r: Serialized, n: nat) {
    |r.code| >= 1 && r.next == n + |r.code|
  }

  /** A non-empty block of code occupying exactly the indices n .. next-1. */
  predicate Contiguous(r: Serialized, n: nat) {
    Sized(r, n) && Numbered(r.code, n)
  }

  predicate AllTerminal(code: seq<Descr>) {
    forall i :: 0 <= i < |code| ==> code[i].link == TERMINAL
  }

  lemma NumberedAppend(a: seq<Descr>, b: seq<Descr>, n: nat)
    requires Numbered(a, n) && Numbered(b, n + |a|)
    ensures Numbered(a + b, n)
  {
  }

  lemma FixedNumbered(c: seq<Descr>, n: nat)
    requires Numbered(c, n)
    ensures Numbered(Fixed(c), n)
  {
  }

  // ---------------------------------------------------------------------------
  // The serialize overloads

  /** serialize(Property): one descriptor, arguments as make_array leaves them. */
  function SerializeProp(p: Prop, n: nat): (r: Serialized)
    ensures |r.code| == 1 && r.next == n + 1
    ensures r.code[0].index == n && r.code[0].link == TERMINAL
  {
    Serialized([Descr(p.symbol, PropertySlots(p.args), n, TERMINAL)], n + 1)
  }

  /**
   * serialize for the predicate family; every predicate descriptor is TERMINAL.
   * The wrapper overloads are the functions below, one per node kind.
   */
  function SerializePred(p: Pred, n: nat): (r: Serialized)
    ensures Sized(r, n)
    decreases p, 1
  {
    match p
    case Predicate0(s) => Serialized([Descr(s, Slots([]), n, TERMINAL)], n + 1)
    case Predicate1(s, a) => Serialized([Descr(s, Slots([a]), n, TERMINAL)], n + 1)
    case Predicate2(s, a1, a2) => Serialized([Descr(s, Slots([a1, a2]), n, TERMINAL)], n + 1)
    case Predicate3(s, a1, a2, a3) => Serialized([Descr(s, Slots([a1, a2, a3]), n, TERMINAL)], n + 1)
    case PredicateR(s, prop) => SerializePredicateR(s, prop, n)
    case PredicateR1(s, prop, a) => SerializePredicateR1(s, prop, a, n)
    case Combinator1(s, q) => SerializeCombinator1(s, q, n)
    case Combinator2(s, q1, q2) => SerializeCombinator2(s, q1, q2, n)
  }

  /** serialize(PredicateR): a FunPtr to the property laid out right after it. */
  function SerializePredicateR(s: string, prop: Prop, n: nat): (r: Serialized)
    ensures Sized(r, n)
  {
    var c := SerializeProp(prop, n + 1);
    Serialized([Descr(s, Slots([FunPtr(n + 1)]), n, TERMINAL)] + c.code, c.next)
  }

  /** serialize(PredicateR1): the FunPtr to the property, then the literal. */
  function SerializePredicateR1(s: string, prop: Prop, a: Literal, n: nat): (r: Serialized)
    ensures Sized(r, n)
  {
    var c := SerializeProp(prop, n + 1);
    Serialized([Descr(s, Slots([FunPtr(n + 1), a]), n, TERMINAL)] + c.code, c.next)
  }

  /** serialize(Combinator1): a FunPtr to its operand. */
  function SerializeCombinator1(s: string, q: Pred, n: nat): (r: Serialized)
    ensures Sized(r, n)
    decreases Combinator1(s, q), 0
  {
    var c := SerializePred(q, n + 1);
    Serialized([Descr(s, Slots([FunPtr(n + 1)]), n, TERMINAL)] + c.code, c.next)
  }

  /** serialize(Combinator2): FunPtrs to both operands, laid out one after the other. */
  function SerializeCombinator2(s: string, q1: Pred, q2: Pred, n: nat): (r: Serialized)
    ensures Sized(r, n)
    ensures |r.code| > 0 && r.code[0].args[0] == FunPtr(n + 1)
    ensures r.code[0].args[1] == FunPtr(SerializePred(q1, n + 1).next)
    decreases Combinator2(s, q1, q2), 0
  {
    var c1 := SerializePred(q1, n + 1);
    var c2 := SerializePred(q2, c1.next);
    Serialized([Descr(s, Slots([FunPtr(n + 1), FunPtr(c1.next)]), n, TERMINAL)] + c1.code + c2.code, c2.next)
  }

  /**
   * serialize for the action family, fix_computation applied to embedded
   * action children. The wrapper overloads are the functions below.
   */
  function SerializeAct(a: Act, n: nat): (r: Serialized)
    ensures Sized(r, n)
    decreases a, 1
  {
    match a
    case MFunction0(s) => Serialized([Descr(s, Slots([]), n, n + 1)], n + 1)
    case MFunction1(s, x) => Serialized([Descr(s, Slots([x]), n, n + 1)], n + 1)
    case MFunction2(s, x1, x2) => Serialized([Descr(s, Slots([x1, x2]), n, n + 1)], n + 1)
    case MFunction3(s, x1, x2, x3) => Serialized([Descr(s, Slots([x1, x2, x3]), n, n + 1)], n + 1)
    case MFunction1P(s, x, p) => SerializeMFunction1P(s, x, p, n)
    case MFunctionP(s, p) => SerializeMFunctionP(s, p, n)
    case MFunctionPF(s, p, f) => SerializeMFunctionPF(s, p, f, n)
    case MFunctionPFF(s, p, f1, f2) => SerializeMFunctionPFF(s, p, f1, f2, n)
    case MFunctionF(s, f) => SerializeMFunctionF(s, f, n)
    case MFunctionFF(s, f, g) => SerializeMFunctionFF(s, f, g, n)
    case Composition(f, g) => SerializeComposition(f, g, n)
  }

  /** serialize(MFunction1P): the literal, then a FunPtr to the predicate; linked to the next free index. */
  function SerializeMFunction1P(s: string, x: Literal, p: Pred, n: nat): (r: Serialized)
    ensures Sized(r, n)
  {
    var p1 := SerializePred(p, n + 1);
    var h := [Descr(s, Slots([x, FunPtr(n + 1)]), n, p1.next)];
    Serialized(h + p1.code, p1.next)
  }

  /** serialize(MFunctionP): a FunPtr to the predicate. */
  function SerializeMFunctionP(s: string, p: Pred, n: nat): (r: Serialized)
    ensures Sized(r, n)
  {
    var p1 := SerializePred(p, n + 1);
    var h := [Descr(s, Slots([FunPtr(n + 1)]), n, p1.next)];
    Serialized(h + p1.code, p1.next)
  }

  /** serialize(MFunctionPF): the predicate, then the fixed-up action. */
  function SerializeMFunctionPF(s: string, p: Pred, f: Act, n: nat): (r: Serialized)
    ensures Sized(r, n)
    decreases MFunctionPF(s, p, f), 0
  {
    var p1 := SerializePred(p, n + 1);
    var c1 := SerializeAct(f, p1.next);
    var h := [Descr(s, Slots([FunPtr(n + 1), FunPtr(p1.next)]), n, c1.next)];
    Serialized(h + p1.code + Fixed(c1.code), c1.next)
  }

  /** serialize(MFunctionPFF): the predicate, then both fixed-up actions. */
  function SerializeMFunctionPFF(s: string, p: Pred, f1: Act, f2: Act, n: nat): (r: Serialized)
    ensures Sized(r, n)
    decreases MFunctionPFF(s, p, f1, f2), 0
  {
    var p1 := SerializePred(p, n + 1);
    var c1 := SerializeAct(f1, p1.next);
    var c2 := SerializeAct(f2, c1.next);
    var h := [Descr(s, Slots([FunPtr(n + 1), FunPtr(p1.next), FunPtr(c1.next)]), n, c2.next)];
    Serialized(h + p1.code + Fixed(c1.code) + Fixed(c2.code), c2.next)
  }

  /** serialize(MFunctionF): the fixed-up action. */
  function SerializeMFunctionF(s: string, f: Act, n: nat): (r: Serialized)
    ensures Sized(r, n)
    decreases MFunctionF(s, f), 0
  {
    var f1 := SerializeAct(f, n + 1);
    var h := [Descr(s, Slots([FunPtr(n + 1)]), n, f1.next)];
    Serialized(h + Fixed(f1.code), f1.next)
  }

  /** serialize(MFunctionFF): both fixed-up actions. */
  function SerializeMFunctionFF(s: string, f: Act, g: Act, n: nat): (r: Serialized)
    ensures Sized(r, n)
    decreases MFunctionFF(s, f, g), 0
  {
    var f1 := SerializeAct(f, n + 1);
    var f2 := SerializeAct(g, f1.next);
    var h := [Descr(s, Slots([FunPtr(n + 1), FunPtr(f1.next)]), n, f2.next)];
    Serialized(h + Fixed(f1.code) + Fixed(f2.code), f2.next)
  }

  /** serialize(Composition): no descriptor of its own, both sides back to back and unpatched. */
  function SerializeComposition(f: Act, g: Act, n: nat): (r: Serialized)
    ensures Sized(r, n)
    decreases Composition(f, g), 0
  {
    var v1 := SerializeAct(f, n);
    var v2 := SerializeAct(g, v1.next);
    Serialized(v1.code + v2.code, v2.next)
  }

  // ---------------------------------------------------------------------------
  // Indices: a node serialized at n occupies exactly n .. next-1

  lemma PropContiguous(p: Prop, n: nat)
    ensures Contiguous(SerializeProp(p, n), n) && AllTerminal(SerializeProp(p, n).code)
  {
  }

  /** A predicate tree occupies the indices n .. next-1 in order, and every descriptor of it is TERMINAL. */
  lemma {:induction false} PredContiguous(p: Pred, n: nat)
    ensures Contiguous(SerializePred(p, n), n) && AllTerminal(SerializePred(p, n).code)
    decreases p
  {
    match p
    case PredicateR(_, _) => PropertyContiguous(p, n);
    case PredicateR1(_, _, _) => PropertyContiguous(p, n);
    case Combinator1(s, q) =>
      PredContiguous(q, n + 1);
      NotContiguous(s, q, n);
    case Combinator2(s, q1, q2) =>
      PredContiguous(q1, n + 1);
      PredContiguous(q2, SerializePred(q1, n + 1).next);
      BinaryContiguous(s, q1, q2, n);
    case _ =>
  }

  lemma PropertyContiguous(p: Pred, n: nat)
    requires p.PredicateR? || p.PredicateR1?
    ensures Contiguous(SerializePred(p, n), n) && AllTerminal(SerializePred(p, n).code)
  {
    var c := SerializeProp(p.prop, n + 1);
    var h := [Descr(p.symbol, Slots(if p.PredicateR? then [FunPtr(n + 1)] else [FunPtr(n + 1), p.arg]), n, TERMINAL)];
    assert SerializePred(p, n).code == h + c.code;
    PropContiguous(p.prop, n + 1);
    NumberedAppend(h, c.code, n);
  }

  lemma NotContiguous(s: string, q: Pred, n: nat)
    requires Numbered(SerializePred(q, n + 1).code, n + 1) && AllTerminal(SerializePred(q, n + 1).code)
    ensures Contiguous(SerializePred(Combinator1(s, q), n), n) && AllTerminal(SerializePred(Combinator1(s, q), n).code)
  {
    var c := SerializePred(q, n + 1);
    var h := [Descr(s, Slots([FunPtr(n + 1)]), n, TERMINAL)];
    assert SerializePred(Combinator1(s, q), n).code == h + c.code;
    NumberedAppend(h, c.code, n);
  }

  lemma BinaryContiguous(s: string, q1: Pred, q2: Pred, n: nat)
    requires Numbered(SerializePred(q1, n + 1).code, n + 1) && AllTerminal(SerializePred(q1, n + 1).code)
    requires var t := SerializePred(q1, n + 1).next;
      Numbered(SerializePred(q2, t).code, t) && AllTerminal(SerializePred(q2, t).code)
    ensures Contiguous(SerializePred(Combinator2(s, q1, q2), n), n)
    ensures AllTerminal(SerializePred(Combinator2(s, q1, q2), n).code)
  {
    var c1 := SerializePred(q1, n + 1);
    var c2 := SerializePred(q2, c1.next);
    var h := [Descr(s, Slots([FunPtr(n + 1), FunPtr(c1.next)]), n, TERMINAL)];
    assert SerializePred(Combinator2(s, q1, q2), n).code == h + c1.code + c2.code;
    NumberedAppend(h, c1.code, n);
    NumberedAppend(h + c1.code, c2.code, n);
  }

  /** An action tree occupies the indices n .. next-1 in order. */
  lemma {:induction false} ActContiguous(a: Act, n: nat)
    ensures Contiguous(SerializeAct(a, n), n)
    decreases a
  {
    match a
    case MFunction1P(_, _, p) =>
      PredContiguous(p, n + 1);
      FilterContiguous(a, n);
    case MFunctionP(_, p) =>
      PredContiguous(p, n + 1);
      FilterContiguous(a, n);
    case MFunctionPF(s, p, f) =>
      PredContiguous(p, n + 1);
      ActContiguous(f, SerializePred(p, n + 1).next);
      GuardedContiguous(s, p, f, n);
    case MFunctionPFF(s, p, f1, f2) =>
      PredContiguous(p, n + 1);
      ActContiguous(f1, SerializePred(p, n + 1).next);
      ActContiguous(f2, SerializeAct(f1, SerializePred(p, n + 1).next).next);
      BranchContiguous(s, p, f1, f2, n);
    case MFunctionF(s, f) =>
      ActContiguous(f, n + 1);
      NestedContiguous(s, f, n);
    case MFunctionFF(s, f, g) =>
      ActContiguous(f, n + 1);
      ActContiguous(g, SerializeAct(f, n + 1).next);
      PairContiguous(s, f, g, n);
    case Composition(f, g) =>
      ActContiguous(f, n);
      ActContiguous(g, SerializeAct(f, n).next);
      ComposedContiguous(f, g, n);
    case _ =>
  }

  lemma FilterContiguous(a: Act, n: nat)
    requires a.MFunction1P? || a.MFunctionP?
    requires Numbered(SerializePred(a.pred, n + 1).code, n + 1)
    ensures Contiguous(SerializeAct(a, n), n)
  {
    var p1 := SerializePred(a.pred, n + 1);
    var h := [Descr(a.symbol, Slots(if a.MFunctionP? then [FunPtr(n + 1)] else [a.arg, FunPtr(n + 1)]), n, p1.next)];
    assert SerializeAct(a, n).code == h + p1.code;
    NumberedAppend(h, p1.code, n);
  }

  lemma NestedContiguous(s: string, f: Act, n: nat)
    requires Numbered(SerializeAct(f, n + 1).code, n + 1)
    ensures Contiguous(SerializeAct(MFunctionF(s, f), n), n)
  {
    var f1 := SerializeAct(f, n + 1);
    var h := [Descr(s, Slots([FunPtr(n + 1)]), n, f1.next)];
    assert SerializeAct(MFunctionF(s, f), n).code == h + Fixed(f1.code);
    FixedNumbered(f1.code, n + 1);
    NumberedAppend(h, Fixed(f1.code), n);
  }

  lemma ComposedContiguous(f: Act, g: Act, n: nat)
    requires Numbered(SerializeAct(f, n).code, n)
    requires Numbered(SerializeAct(g, SerializeAct(f, n).next).code, SerializeAct(f, n).next)
    ensures Contiguous(SerializeAct(Composition(f, g), n), n)
  {
    var v1 := SerializeAct(f, n);
    var v2 := SerializeAct(g, v1.next);
    assert SerializeAct(Composition(f, g), n).code == v1.code + v2.code;
    NumberedAppend(v1.code, v2.code, n);
  }

  lemma GuardedContiguous(s: string, p: Pred, f: Act, n: nat)
    requires Numbered(SerializePred(p, n + 1).code, n + 1)
    requires Numbered(SerializeAct(f, SerializePred(p, n + 1).next).code, SerializePred(p, n + 1).next)
    ensures Contiguous(SerializeAct(MFunctionPF(s, p, f), n), n)
  {
    var p1 := SerializePred(p, n + 1);
    var c1 := SerializeAct(f, p1.next);
    var h := [Descr(s, Slots([FunPtr(n + 1), FunPtr(p1.next)]), n, c1.next)];
    assert SerializeAct(MFunctionPF(s, p, f), n).code == h + p1.code + Fixed(c1.code);
    NumberedAppend(h, p1.code, n);
    FixedNumbered(c1.code, p1.next);
    NumberedAppend(h + p1.code, Fixed(c1.code), n);
  }

  lemma BranchContiguous(s: string, p: Pred, f1: Act, f2: Act, n: nat)
    requires Numbered(SerializePred(p, n + 1).code, n + 1)
    requires Numbered(SerializeAct(f1, SerializePred(p, n + 1).next).code, SerializePred(p, n + 1).next)
    requires Numbered(SerializeAct(f2, SerializeAct(f1, SerializePred(p, n + 1).next).next).code,
                      SerializeAct(f1, SerializePred(p, n + 1).next).next)
    ensures Contiguous(SerializeAct(MFunctionPFF(s, p, f1, f2), n), n)
  {
    var p1 := SerializePred(p, n + 1);
    var c1 := SerializeAct(f1, p1.next);
    var c2 := SerializeAct(f2, c1.next);
    var h := [Descr(s, Slots([FunPtr(n + 1), FunPtr(p1.next), FunPtr(c1.next)]), n, c2.next)];
    assert SerializeAct(MFunctionPFF(s, p, f1, f2), n).code == h + p1.code + Fixed(c1.code) + Fixed(c2.code);
    NumberedAppend(h, p1.code, n);
    FixedNumbered(c1.code, p1.next);
    NumberedAppend(h + p1.code, Fixed(c1.code), n);
    FixedNumbered(c2.code, c1.next);
    NumberedAppend(h + p1.code + Fixed(c1.code), Fixed(c2.code), n);
  }

  lemma PairContiguous(s: string, f: Act, g: Act, n: nat)
    requires Numbered(SerializeAct(f, n + 1).code, n + 1)
    requires Numbered(SerializeAct(g, SerializeAct(f, n + 1).next).code, SerializeAct(f, n + 1).next)
    ensures Contiguous(SerializeAct(MFunctionFF(s, f, g), n), n)
  {
    var f1 := SerializeAct(f, n + 1);
    var f2 := SerializeAct(g, f1.next);
    var h := [Descr(s, Slots([FunPtr(n + 1), FunPtr(f1.next)]), n, f2.next)];
    assert SerializeAct(MFunctionFF(s, f, g), n).code == h + Fixed(f1.code) + Fixed(f2.code);
    FixedNumbered(f1.code, n + 1);
    NumberedAppend(h, Fixed(f1.code), n);
    FixedNumbered(f2.code, f1.next);
    NumberedAppend(h + Fixed(f1.code), Fixed(f2.code), n);
  }

  // ---------------------------------------------------------------------------
  // serialize(std::vector<MFunction>): one action after the other

  /** The actions serialized back to back, each starting where the previous one ended. */
  function SerializeAll(cont: seq<Act>, n: nat): (r: Serialized)
    ensures r.next == n + |r.code|
    ensures |r.code| >= |cont|
    decreases |cont|
  {
    if |cont| == 0 then Serialized([], n)
    else
      var front := SerializeAll(cont[..|cont| - 1], n);
      var last := SerializeAct(cont[|cont| - 1], front.next);
      Serialized(front.code + last.code, last.next)
  }

  /** The loop of the list overload, threading n1 and growing ret; the elements are plain MFunctions. */
  method SerializeList(cont: seq<Act>, n: nat) returns (ret: seq<Descr>, n1: nat)
    requires forall i :: 0 <= i < |cont| ==> cont[i].MFunction0?
    ensures Serialized(ret, n1) == SerializeAll(cont, n)
  {
    ret := [];
    n1 := n;
    for i := 0 to |cont|
      invariant Serialized(ret, n1) == SerializeAll(cont[..i], n)
    {
      var v := SerializeAct(cont[i], n1);
      assert cont[..i + 1][..i] == cont[..i];
      ret, n1 := ret + v.code, v.next;
    }
    assert cont[..|cont|] == cont;
  }
}

=== FILE: serializer_properties.dfy ===
/**
 * What serialize() guarantees: the shape of leaf and wrapper descriptors,
 * forward-only links and back-references, the continuation fix-up of
 * embedded actions, Composition as plain concatenation, and the symbols
 * reproduced verbatim in pre-order.
 */
module SerializerProperties {
  import opened Wrappers
  import opened Arguments
  import opened Descriptors
  import opened Nodes
  import opened Serializer

  // ---------------------------------------------------------------------------
  // Leaves

  /** The literal arguments a leaf carries, in declaration order. */
  function PredLeafArgs(p: Pred): seq<Argument>
  {
    match p
    case Predicate1(_, a) => [a]
    case Predicate2(_, a1, a2) => [a1, a2]
    case Predicate3(_, a1, a2, a3) => [a1, a2, a3]
    case _ => []
  }

  function ActLeafArgs(a: Act): seq<Argument>
  {
    match a
    case MFunction1(_, x) => [x]
    case MFunction2(_, x1, x2) => [x1, x2]
    case MFunction3(_, x1, x2, x3) => [x1, x2, x3]
    case _ => []
  }

  /** A leaf predicate: one descriptor, its literals first, null after, no continuation. */
  lemma PredicateLeaf(p: Pred, n: nat)
    requires p.Predicate0? || p.Predicate1? || p.Predicate2? || p.Predicate3?
    ensures var r := SerializePred(p, n);
      && |r.code| == 1 && r.next == n + 1
      && r.code[0].symbol == p.symbol && r.code[0].index == n && r.code[0].link == TERMINAL
      && |PredLeafArgs(p)| <= 3 && r.code[0].args[..|PredLeafArgs(p)|] == PredLeafArgs(p)
      && forall i :: |PredLeafArgs(p)| <= i < 8 ==> r.code[0].args[i] == NullArg()
  {
  }

  /** A leaf action: the same shape, but continuing at the next index. */
  lemma ActionLeaf(a: Act, n: nat)
    requires a.MFunction0? || a.MFunction1? || a.MFunction2? || a.MFunction3?
    ensures var r := SerializeAct(a, n);
      && |r.code| == 1 && r.next == n + 1
      && r.code[0].symbol == a.symbol && r.code[0].index == n && r.code[0].link == n + 1
      && |ActLeafArgs(a)| <= 3 && r.code[0].args[..|ActLeafArgs(a)|] == ActLeafArgs(a)
      && forall i :: |ActLeafArgs(a)| <= i < 8 ==> r.code[0].args[i] == NullArg()
  {
  }

  /** A property: one TERMINAL descriptor whose slot 0 holds only its last argument. */
  lemma PropertyLeaf(p: Prop, n: nat)
    ensures var r := SerializeProp(p, n);
      && |r.code| == 1 && r.next == n + 1
      && r.code[0].symbol == p.symbol && r.code[0].index == n && r.code[0].link == TERMINAL
      && r.code[0].args[0] == (if |p.args| == 0 then NullArg() else p.args[|p.args| - 1])
      && forall i :: 1 <= i < 8 ==> r.code[0].args[i] == NullArg()
  {
  }

  // ---------------------------------------------------------------------------
  // Links and back-references only point forward, inside the program

  predicate LinkForward(d: Descr, next: nat) {
    d.link == TERMINAL || d.index < d.link <= next
  }

  predicate RefsForward(d: Descr, next: nat) {
    forall k :: 0 <= k < 8 && IsBackRef(d.args[k]) ==> d.index < d.args[k].size < next
  }

  /** Every continuation is TERMINAL or later in the program (at most its end), every FunPtr strictly inside it and later. */
  predicate WellLinked(code: seq<Descr>, next: nat) {
    forall i :: 0 <= i < |code| ==> LinkForward(code[i], next) && RefsForward(code[i], next)
  }

  lemma WellLinkedAppend(a: seq<Descr>, b: seq<Descr>, next: nat)
    requires WellLinked(a, next) && WellLinked(b, next)
    ensures WellLinked(a + b, next)
  {
    forall i | 0 <= i < |a + b|
      ensures LinkForward((a + b)[i], next) && RefsForward((a + b)[i], next)
    {
      if i < |a| {
        assert (a + b)[i] == a[i];
      } else {
        assert (a + b)[i] == b[i - |a|];
      }
    }
  }

  lemma WellLinkedWiden(a: seq<Descr>, m: nat, m': nat)
    requires WellLinked(a, m) && m <= m'
    ensures WellLinked(a, m')
  {
    forall i | 0 <= i < |a|
      ensures LinkForward(a[i], m') && RefsForward(a[i], m')
    {
      assert LinkForward(a[i], m) && RefsForward(a[i], m);
    }
  }

  lemma WellLinkedFixed(c: seq<Descr>, next: nat)
    requires WellLinked(c, next)
    ensures WellLinked(Fixed(c), next)
  {
    forall i | 0 <= i < |c|
      ensures LinkForward(Fixed(c)[i], next) && RefsForward(Fixed(c)[i], next)
    {
      assert LinkForward(c[i], next) && RefsForward(c[i], next);
    }
  }

  /** A head descriptor whose listed back-references all lie after it and before next. */
  lemma HeadWellLinked(s: string, xs: seq<Argument>, n: nat, link: nat, next: nat)
    requires |xs| <= 8
    requires forall j :: 0 <= j < |xs| && IsBackRef(xs[j]) ==> n < xs[j].size < next
    requires link == TERMINAL || n < link <= next
    ensures WellLinked([Descr(s, Slots(xs), n, link)], next)
  {
    var d := Descr(s, Slots(xs), n, link);
    forall k | 0 <= k < 8
      ensures IsBackRef(d.args[k]) ==> n < d.args[k].size < next
    {
      if k < |xs| {
        assert d.args[k] == Slots(xs)[..|xs|][k] == xs[k];
      }
    }
  }

  lemma PropWellLinked(p: Prop, n: nat)
    ensures WellLinked(SerializeProp(p, n).code, SerializeProp(p, n).next)
  {
    var d := SerializeProp(p, n).code[0];
    forall k | 0 <= k < 8
      ensures !IsBackRef(d.args[k])
    {
      if k > 0 {
        assert d.args[k] == NullArg();
      } else if |p.args| > 0 {
        LiteralIsNotBackRef(p.args[|p.args| - 1]);
      }
    }
  }

  lemma {:induction false} PredWellLinked(p: Pred, n: nat)
    ensures WellLinked(SerializePred(p, n).code, SerializePred(p, n).next)
    decreases p
  {
    match p
    case Predicate0(_) => LeafPredWellLinked(p, n);
    case Predicate1(_, _) => LeafPredWellLinked(p, n);
    case Predicate2(_, _, _) => LeafPredWellLinked(p, n);
    case Predicate3(_, _, _, _) => LeafPredWellLinked(p, n);
    case PredicateR(_, prop) =>
      PropWellLinked(prop, n + 1);
      UnaryPredWellLinked(p, n);
    case PredicateR1(_, prop, _) =>
      PropWellLinked(prop, n + 1);
      UnaryPredWellLinked(p, n);
    case Combinator1(_, q) =>
      PredWellLinked(q, n + 1);
      UnaryPredWellLinked(p, n);
    case Combinator2(s, q1, q2) =>
      PredWellLinked(q1, n + 1);
      PredWellLinked(q2, SerializePred(q1, n + 1).next);
      BinaryPredWellLinked(s, q1, q2, n);
  }

  lemma LeafPredWellLinked(p: Pred, n: nat)
    requires p.Predicate0? || p.Predicate1? || p.Predicate2? || p.Predicate3?
    ensures WellLinked(SerializePred(p, n).code, SerializePred(p, n).next)
  {
    var r := SerializePred(p, n);
    match p
    case Predicate0(s) =>
      HeadWellLinked(s, [], n, TERMINAL, r.next);
    case Predicate1(s, a) =>
      HeadWellLinked(s, [a], n, TERMINAL, r.next);
    case Predicate2(s, a1, a2) =>
      HeadWellLinked(s, [a1, a2], n, TERMINAL, r.next);
    case Predicate3(s, a1, a2, a3) =>
      HeadWellLinked(s, [a1, a2, a3], n, TERMINAL, r.next);
  }

  /** The one-child wrappers, given that their child's code is well linked. */
  lemma UnaryPredWellLinked(p: Pred, n: nat)
    requires p.PredicateR? || p.PredicateR1? || p.Combinator1?
    requires p.PredicateR? || p.PredicateR1? ==> WellLinked(SerializeProp(p.prop, n + 1).code, SerializeProp(p.prop, n + 1).next)
    requires p.Combinator1? ==> WellLinked(SerializePred(p.pred, n + 1).code, SerializePred(p.pred, n + 1).next)
    ensures WellLinked(SerializePred(p, n).code, SerializePred(p, n).next)
  {
    match p
    case PredicateR(s, prop) =>
      var r := SerializePredicateR(s, prop, n);
      HeadWellLinked(s, [FunPtr(n + 1)], n, TERMINAL, r.next);
      WellLinkedAppend([Descr(s, Slots([FunPtr(n + 1)]), n, TERMINAL)], SerializeProp(prop, n + 1).code, r.next);
    case PredicateR1(s, prop, a) =>
      var r := SerializePredicateR1(s, prop, a, n);
      HeadWellLinked(s, [FunPtr(n + 1), a], n, TERMINAL, r.next);
      WellLinkedAppend([Descr(s, Slots([FunPtr(n + 1), a]), n, TERMINAL)], SerializeProp(prop, n + 1).code, r.next);
    case Combinator1(s, q) =>
      var r := SerializeCombinator1(s, q, n);
      HeadWellLinked(s, [FunPtr(n + 1)], n, TERMINAL, r.next);
      WellLinkedAppend([Descr(s, Slots([FunPtr(n + 1)]), n, TERMINAL)], SerializePred(q, n + 1).code, r.next);
  }

  lemma BinaryPredWellLinked(s: string, q1: Pred, q2: Pred, n: nat)
    requires WellLinked(SerializePred(q1, n + 1).code, SerializePred(q1, n + 1).next)
    requires WellLinked(SerializePred(q2, SerializePred(q1, n + 1).next).code,
                        SerializePred(q2, SerializePred(q1, n + 1).next).next)
    ensures WellLinked(SerializePred(Combinator2(s, q1, q2), n).code, SerializePred(Combinator2(s, q1, q2), n).next)
  {
    var c1 := SerializePred(q1, n + 1);
    var c2 := SerializePred(q2, c1.next);
    var h := [Descr(s, Slots([FunPtr(n + 1), FunPtr(c1.next)]), n, TERMINAL)];
    assert SerializePred(Combinator2(s, q1, q2), n) == Serialized(h + c1.code + c2.code, c2.next);
    WellLinkedWiden(c1.code, c1.next, c2.next);
    HeadWellLinked(s, [FunPtr(n + 1), FunPtr(c1.next)], n, TERMINAL, c2.next);
    WellLinkedAppend(h, c1.code, c2.next);
    WellLinkedAppend(h + c1.code, c2.code, c2.next);
  }

  /**
   * Every action program is well linked: a continuation is TERMINAL or lies
   * after its descriptor and no further than the next free index, and every
   * FunPtr targets a later descriptor of the same program.
   */
  lemma {:induction false} ActWellLinked(a: Act, n: nat)
    ensures WellLinked(SerializeAct(a, n).code, SerializeAct(a, n).next)
    decreases a
  {
    match a
    case MFunction0(_) => LeafWellLinked(a, n);
    case MFunction1(_, _) => LeafWellLinked(a, n);
    case MFunction2(_, _, _) => LeafWellLinked(a, n);
    case MFunction3(_, _, _, _) => LeafWellLinked(a, n);
    case MFunction1P(s, x, p) =>
      PredWellLinked(p, n + 1);
      FilterWellLinked(a, n);
    case MFunctionP(s, p) =>
      PredWellLinked(p, n + 1);
      FilterWellLinked(a, n);
    case MFunctionPF(s, p, f) =>
      PredWellLinked(p, n + 1);
      ActWellLinked(f, SerializePred(p, n + 1).next);
      GuardedWellLinked(s, p, f, n);
    case MFunctionPFF(s, p, f1, f2) =>
      var p1 := SerializePred(p, n + 1);
      PredWellLinked(p, n + 1);
      ActWellLinked(f1, p1.next);
      ActWellLinked(f2, SerializeAct(f1, p1.next).next);
      BranchWellLinked(s, p, f1, f2, n);
    case MFunctionF(s, f) =>
      ActWellLinked(f, n + 1);
      NestedWellLinked(s, f, n);
    case MFunctionFF(s, f, g) =>
      ActWellLinked(f, n + 1);
      ActWellLinked(g, SerializeAct(f, n + 1).next);
      PairWellLinked(s, f, g, n);
    case Composition(f, g) =>
      ActWellLinked(f, n);
      ActWellLinked(g, SerializeAct(f, n).next);
      ComposedWellLinked(f, g, n);
  }

  lemma LeafWellLinked(a: Act, n: nat)
    requires a.MFunction0? || a.MFunction1? || a.MFunction2? || a.MFunction3?
    ensures WellLinked(SerializeAct(a, n).code, SerializeAct(a, n).next)
  {
    HeadWellLinked(a.symbol, ActLeafArgs(a), n, n + 1, n + 1);
  }

  lemma FilterWellLinked(a: Act, n: nat)
    requires a.MFunction1P? || a.MFunctionP?
    requires WellLinked(SerializePred(a.pred, n + 1).code, SerializePred(a.pred, n + 1).next)
    ensures WellLinked(SerializeAct(a, n).code, SerializeAct(a, n).next)
  {
    var p1 := SerializePred(a.pred, n + 1);
    var xs := if a.MFunction1P? then [a.arg, FunPtr(n + 1)] else [FunPtr(n + 1)];
    HeadWellLinked(a.symbol, xs, n, p1.next, p1.next);
    WellLinkedAppend([Descr(a.symbol, Slots(xs), n, p1.next)], p1.code, p1.next);
  }

  lemma NestedWellLinked(s: string, f: Act, n: nat)
    requires WellLinked(SerializeAct(f, n + 1).code, SerializeAct(f, n + 1).next)
    ensures WellLinked(SerializeAct(MFunctionF(s, f), n).code, SerializeAct(MFunctionF(s, f), n).next)
  {
    var f1 := SerializeAct(f, n + 1);
    WellLinkedFixed(f1.code, f1.next);
    HeadWellLinked(s, [FunPtr(n + 1)], n, f1.next, f1.next);
    WellLinkedAppend([Descr(s, Slots([FunPtr(n + 1)]), n, f1.next)], Fixed(f1.code), f1.next);
  }

  lemma ComposedWellLinked(f: Act, g: Act, n: nat)
    requires WellLinked(SerializeAct(f, n).code, SerializeAct(f, n).next)
    requires WellLinked(SerializeAct(g, SerializeAct(f, n).next).code, SerializeAct(g, SerializeAct(f, n).next).next)
    ensures WellLinked(SerializeAct(Composition(f, g), n).code, SerializeAct(Composition(f, g), n).next)
  {
    var v1 := SerializeAct(f, n);
    var v2 := SerializeAct(g, v1.next);
    WellLinkedWiden(v1.code, v1.next, v2.next);
    WellLinkedAppend(v1.code, v2.code, v2.next);
  }

  lemma GuardedWellLinked(s: string, p: Pred, f: Act, n: nat)
    requires WellLinked(SerializePred(p, n + 1).code, SerializePred(p, n + 1).next)
    requires WellLinked(SerializeAct(f, SerializePred(p, n + 1).next).code,
                        SerializeAct(f, SerializePred(p, n + 1).next).next)
    ensures WellLinked(SerializeAct(MFunctionPF(s, p, f), n).code, SerializeAct(MFunctionPF(s, p, f), n).next)
  {
    var r := SerializeMFunctionPF(s, p, f, n);
    var p1 := SerializePred(p, n + 1);
    var c1 := SerializeAct(f, p1.next);
    var h := [Descr(s, Slots([FunPtr(n + 1), FunPtr(p1.next)]), n, c1.next)];
    WellLinkedWiden(p1.code, p1.next, r.next);
    WellLinkedFixed(c1.code, r.next);
    HeadWellLinked(s, [FunPtr(n + 1), FunPtr(p1.next)], n, c1.next, r.next);
    WellLinkedAppend(h, p1.code, r.next);
    WellLinkedAppend(h + p1.code, Fixed(c1.code), r.next);
  }

  lemma BranchWellLinked(s: string, p: Pred, f1: Act, f2: Act, n: nat)
    requires WellLinked(SerializePred(p, n + 1).code, SerializePred(p, n + 1).next)
    requires WellLinked(SerializeAct(f1, SerializePred(p, n + 1).next).code,
                        SerializeAct(f1, SerializePred(p, n + 1).next).next)
    requires WellLinked(SerializeAct(f2, SerializeAct(f1, SerializePred(p, n + 1).next).next).code,
                        SerializeAct(f2, SerializeAct(f1, SerializePred(p, n + 1).next).next).next)
    ensures WellLinked(SerializeAct(MFunctionPFF(s, p, f1, f2), n).code, SerializeAct(MFunctionPFF(s, p, f1, f2), n).next)
  {
    var r := SerializeMFunctionPFF(s, p, f1, f2, n);
    var p1 := SerializePred(p, n + 1);
    var c1 := SerializeAct(f1, p1.next);
    var c2 := SerializeAct(f2, c1.next);
    var h := [Descr(s, Slots([FunPtr(n + 1), FunPtr(p1.next), FunPtr(c1.next)]), n, c2.next)];
    WellLinkedWiden(p1.code, p1.next, r.next);
    WellLinkedWiden(c1.code, c1.next, r.next);
    WellLinkedFixed(c1.code, r.next);
    WellLinkedFixed(c2.code, r.next);
    HeadWellLinked(s, [FunPtr(n + 1), FunPtr(p1.next), FunPtr(c1.next)], n, c2.next, r.next);
    WellLinkedAppend(h, p1.code, r.next);
    WellLinkedAppend(h + p1.code, Fixed(c1.code), r.next);
    WellLinkedAppend(h + p1.code + Fixed(c1.code), Fixed(c2.code), r.next);
  }

  lemma PairWellLinked(s: string, f: Act, g: Act, n: nat)
    requires WellLinked(SerializeAct(f, n + 1).code, SerializeAct(f, n + 1).next)
    requires WellLinked(SerializeAct(g, SerializeAct(f, n + 1).next).code,
                        SerializeAct(g, SerializeAct(f, n + 1).next).next)
    ensures WellLinked(SerializeAct(MFunctionFF(s, f, g), n).code, SerializeAct(MFunctionFF(s, f, g), n).next)
  {
    var r := SerializeMFunctionFF(s, f, g, n);
    var f1 := SerializeAct(f, n + 1);
    var f2 := SerializeAct(g, f1.next);
    var h := [Descr(s, Slots([FunPtr(n + 1), FunPtr(f1.next)]), n, f2.next)];
    WellLinkedWiden(f1.code, f1.next, r.next);
    WellLinkedFixed(f1.code, r.next);
    WellLinkedFixed(f2.code, r.next);
    HeadWellLinked(s, [FunPtr(n + 1), FunPtr(f1.next)], n, f2.next, r.next);
    WellLinkedAppend(h, Fixed(f1.code), r.next);
    WellLinkedAppend(h + Fixed(f1.code), Fixed(f2.code), r.next);
  }

  // ---------------------------------------------------------------------------
  // Wrapper descriptors: where their back-references point, where they continue

  /** `block` sits in `code` (which starts at index n) exactly from index t on. */
  predicate Placed(code: seq<Descr>, n: nat, t: nat, block: seq<Descr>) {
    n <= t && t - n + |block| <= |code| && code[t - n .. t - n + |block|] == block
  }

  lemma PlacedLast(code: seq<Descr>, n: nat, t: nat, block: seq<Descr>)
    requires Placed(code, n, t, block) && |block| > 0
    ensures code[t - n + |block| - 1] == block[|block| - 1]
  {
    assert code[t - n .. t - n + |block|][|block| - 1] == block[|block| - 1];
  }

  /** Where the block of a head descriptor followed by one block sits. */
  lemma PlacedOne(code: seq<Descr>, h: Descr, a: seq<Descr>, n: nat)
    requires code == [h] + a
    ensures code[0] == h
    ensures Placed(code, n, n + 1, a)
  {
    assert code[1 .. 1 + |a|] == a;
  }

  /** Where the blocks of a head descriptor followed by three blocks sit. */
  lemma PlacedThree(code: seq<Descr>, h: Descr, a: seq<Descr>, b: seq<Descr>, c: seq<Descr>, n: nat, t1: nat, t2: nat)
    requires code == [h] + a + b + c
    requires t1 == n + 1 + |a| && t2 == t1 + |b|
    ensures code[0] == h
    ensures Placed(code, n, n + 1, a) && Placed(code, n, t1, b) && Placed(code, n, t2, c)
  {
    assert code[1 .. 1 + |a|] == a;
    assert code[1 + |a| .. 1 + |a| + |b|] == b;
    assert code[1 + |a| + |b| .. 1 + |a| + |b| + |c|] == c;
  }

  /** The PFF case of SerializeAct, spelled out. */
  lemma UnfoldBranch(s: string, p: Pred, f1: Act, f2: Act, n: nat)
    ensures var p1 := SerializePred(p, n + 1);
      var a1 := SerializeAct(f1, p1.next);
      var a2 := SerializeAct(f2, a1.next);
      var h := Descr(s, Slots([FunPtr(n + 1), FunPtr(p1.next), FunPtr(a1.next)]), n, a2.next);
      SerializeMFunctionPFF(s, p, f1, f2, n) == Serialized([h] + p1.code + Fixed(a1.code) + Fixed(a2.code), a2.next)
  {
  }

  /** The PF case of SerializeAct, spelled out. */
  lemma UnfoldGuarded(s: string, p: Pred, f: Act, n: nat)
    ensures var p1 := SerializePred(p, n + 1);
      var c1 := SerializeAct(f, p1.next);
      var h := Descr(s, Slots([FunPtr(n + 1), FunPtr(p1.next)]), n, c1.next);
      SerializeMFunctionPF(s, p, f, n) == Serialized([h] + p1.code + Fixed(c1.code), c1.next)
  {
  }

  /** The FF case of SerializeAct, spelled out. */
  lemma UnfoldPair(s: string, f: Act, g: Act, n: nat)
    ensures var f1 := SerializeAct(f, n + 1);
      var f2 := SerializeAct(g, f1.next);
      var h := Descr(s, Slots([FunPtr(n + 1), FunPtr(f1.next)]), n, f2.next);
      SerializeMFunctionFF(s, f, g, n) == Serialized([h] + Fixed(f1.code) + Fixed(f2.code), f2.next)
  {
  }

  /** The F case of SerializeAct, spelled out. */
  lemma UnfoldNested(s: string, f: Act, n: nat)
    ensures var f1 := SerializeAct(f, n + 1);
      var h := Descr(s, Slots([FunPtr(n + 1)]), n, f1.next);
      SerializeMFunctionF(s, f, n) == Serialized([h] + Fixed(f1.code), f1.next)
  {
  }

  /** The P and 1P cases of SerializeAct, spelled out. */
  lemma UnfoldFilter(a: Act, n: nat)
    requires a.MFunction1P? || a.MFunctionP?
    ensures var p1 := SerializePred(a.pred, n + 1);
      var h := Descr(a.symbol, Slots(if a.MFunctionP? then [FunPtr(n + 1)] else [a.arg, FunPtr(n + 1)]), n, p1.next);
      SerializeAct(a, n) == Serialized([h] + p1.code, p1.next)
  {
  }

  /** The Composition case of SerializeAct, spelled out. */
  lemma UnfoldComposition(f: Act, g: Act, n: nat)
    ensures var v1 := SerializeAct(f, n);
      var v2 := SerializeAct(g, v1.next);
      SerializeComposition(f, g, n) == Serialized(v1.code + v2.code, v2.next)
  {
  }

  /**
   * A predicate wrapper: TERMINAL like every predicate, each FunPtr slot names
   * the index from which the corresponding child's code is laid out, and
   * PredicateR1's literal comes after the FunPtr.
   */
  lemma PredWrapper(p: Pred, n: nat)
    requires p.PredicateR? || p.PredicateR1? || p.Combinator1? || p.Combinator2?
    ensures var r := SerializePred(p, n);
      && r.code[0].index == n && r.code[0].link == TERMINAL && r.code[0].args[0] == FunPtr(n + 1)
      && (p.PredicateR? ==> Placed(r.code, n, n + 1, SerializeProp(p.prop, n + 1).code))
      && (p.PredicateR1? ==> r.code[0].args[1] == p.arg && Placed(r.code, n, n + 1, SerializeProp(p.prop, n + 1).code))
      && (p.Combinator1? ==> Placed(r.code, n, n + 1, SerializePred(p.pred, n + 1).code))
      && (p.Combinator2? ==>
            var t := SerializePred(p.pred1, n + 1).next;
            && r.code[0].args[1] == FunPtr(t)
            && Placed(r.code, n, n + 1, SerializePred(p.pred1, n + 1).code)
            && Placed(r.code, n, t, SerializePred(p.pred2, t).code))
  {
    match p
    case PredicateR(_, _) => PropertyWrapper(p, n);
    case PredicateR1(_, _, _) => PropertyWrapper(p, n);
    case Combinator1(s, q) => NotWrapper(s, q, n);
    case Combinator2(s, q1, q2) => BinaryWrapper(s, q1, q2, n);
  }

  lemma PropertyWrapper(p: Pred, n: nat)
    requires p.PredicateR? || p.PredicateR1?
    ensures var r := SerializePred(p, n);
      && r.code[0].index == n && r.code[0].link == TERMINAL && r.code[0].args[0] == FunPtr(n + 1)
      && (p.PredicateR1? ==> r.code[0].args[1] == p.arg)
      && Placed(r.code, n, n + 1, SerializeProp(p.prop, n + 1).code)
  {
    var r := SerializePred(p, n);
    var c := SerializeProp(p.prop, n + 1);
    var h := Descr(p.symbol, Slots(if p.PredicateR? then [FunPtr(n + 1)] else [FunPtr(n + 1), p.arg]), n, TERMINAL);
    PlacedOne(r.code, h, c.code, n);
    assert h.args == h.args[..8];
  }

  lemma NotWrapper(s: string, q: Pred, n: nat)
    ensures var r := SerializeCombinator1(s, q, n);
      && r.code[0].index == n && r.code[0].link == TERMINAL && r.code[0].args[0] == FunPtr(n + 1)
      && Placed(r.code, n, n + 1, SerializePred(q, n + 1).code)
  {
    var r := SerializeCombinator1(s, q, n);
    var c := SerializePred(q, n + 1);
    var h := Descr(s, Slots([FunPtr(n + 1)]), n, TERMINAL);
    PlacedOne(r.code, h, c.code, n);
    assert h.args == h.args[..8];
  }

  lemma BinaryWrapper(s: string, q1: Pred, q2: Pred, n: nat)
    ensures var r := SerializeCombinator2(s, q1, q2, n);
      var t := SerializePred(q1, n + 1).next;
      && r.code[0].index == n && r.code[0].link == TERMINAL
      && r.code[0].args[0] == FunPtr(n + 1) && r.code[0].args[1] == FunPtr(t)
      && Placed(r.code, n, n + 1, SerializePred(q1, n + 1).code)
      && Placed(r.code, n, t, SerializePred(q2, t).code)
  {
    var r := SerializeCombinator2(s, q1, q2, n);
    var c1 := SerializePred(q1, n + 1);
    var c2 := SerializePred(q2, c1.next);
    var h := Descr(s, Slots([FunPtr(n + 1), FunPtr(c1.next)]), n, TERMINAL);
    assert r.code == [h] + c1.code + c2.code + [];
    PlacedThree(r.code, h, c1.code, c2.code, [], n, c1.next, c2.next);
    assert h.args == h.args[..8];
  }

  /**
   * An action wrapper continues at the first index after all its children,
   * each FunPtr slot names the index from which that child's code is laid out,
   * action children appear with the fix-up applied, and MFunction1P's literal
   * comes before its FunPtr.
   */
  lemma ActFilter(a: Act, n: nat)
    requires a.MFunction1P? || a.MFunctionP?
    ensures var r := SerializeAct(a, n);
      && r.code[0].link == r.next
      && (a.MFunctionP? ==> r.code[0].args[0] == FunPtr(n + 1))
      && (a.MFunction1P? ==> r.code[0].args[0] == a.arg && r.code[0].args[1] == FunPtr(n + 1))
      && Placed(r.code, n, n + 1, SerializePred(a.pred, n + 1).code)
  {
    var r := SerializeAct(a, n);
    var p1 := SerializePred(a.pred, n + 1);
    var h := Descr(a.symbol, Slots(if a.MFunctionP? then [FunPtr(n + 1)] else [a.arg, FunPtr(n + 1)]), n, p1.next);
    UnfoldFilter(a, n);
    PlacedOne(r.code, h, p1.code, n);
    assert h.args == h.args[..8];
  }

  lemma ActGuarded(s: string, p: Pred, f: Act, n: nat)
    ensures var r := SerializeMFunctionPF(s, p, f, n);
      var t := SerializePred(p, n + 1).next;
      && r.code[0].link == r.next
      && r.code[0].args[0] == FunPtr(n + 1) && r.code[0].args[1] == FunPtr(t)
      && Placed(r.code, n, n + 1, SerializePred(p, n + 1).code)
      && Placed(r.code, n, t, Fixed(SerializeAct(f, t).code))
      && r.code[|r.code| - 1].link == TERMINAL
  {
    var r := SerializeMFunctionPF(s, p, f, n);
    var p1 := SerializePred(p, n + 1);
    var a1 := SerializeAct(f, p1.next);
    var h := Descr(s, Slots([FunPtr(n + 1), FunPtr(p1.next)]), n, a1.next);
    UnfoldGuarded(s, p, f, n);
    assert r.code == [h] + p1.code + Fixed(a1.code) + [];
    PlacedThree(r.code, h, p1.code, Fixed(a1.code), [], n, p1.next, a1.next);
    PlacedLast(r.code, n, p1.next, Fixed(a1.code));
    assert h.args[..2] == [FunPtr(n + 1), FunPtr(p1.next)];
    assert r.code[0] == h;
  }

  lemma ActBranch(s: string, p: Pred, f1: Act, f2: Act, n: nat)
    ensures var r := SerializeMFunctionPFF(s, p, f1, f2, n);
      var t1 := SerializePred(p, n + 1).next;
      var t2 := SerializeAct(f1, t1).next;
      && r.code[0].link == r.next
      && r.code[0].args[0] == FunPtr(n + 1) && r.code[0].args[1] == FunPtr(t1) && r.code[0].args[2] == FunPtr(t2)
      && Placed(r.code, n, n + 1, SerializePred(p, n + 1).code)
      && Placed(r.code, n, t1, Fixed(SerializeAct(f1, t1).code))
      && Placed(r.code, n, t2, Fixed(SerializeAct(f2, t2).code))
  {
    var p1 := SerializePred(p, n + 1);
    var a1 := SerializeAct(f1, p1.next);
    var a2 := SerializeAct(f2, a1.next);
    var h := Descr(s, Slots([FunPtr(n + 1), FunPtr(p1.next), FunPtr(a1.next)]), n, a2.next);
    var r := SerializeMFunctionPFF(s, p, f1, f2, n);
    UnfoldBranch(s, p, f1, f2, n);
    PlacedThree(r.code, h, p1.code, Fixed(a1.code), Fixed(a2.code), n, p1.next, a1.next);
    assert h.args == h.args[..8];
  }

  /** Both action children of MFunctionPFF end TERMINAL after the fix-up. */
  lemma BranchChildrenTerminal(s: string, p: Pred, f1: Act, f2: Act, n: nat)
    ensures var r := SerializeMFunctionPFF(s, p, f1, f2, n);
      var t2 := SerializeAct(f1, SerializePred(p, n + 1).next).next;
      r.code[t2 - n - 1].link == TERMINAL && r.code[|r.code| - 1].link == TERMINAL
  {
    ActBranch(s, p, f1, f2, n);
    var r := SerializeMFunctionPFF(s, p, f1, f2, n);
    var t1 := SerializePred(p, n + 1).next;
    var t2 := SerializeAct(f1, t1).next;
    PlacedLast(r.code, n, t1, Fixed(SerializeAct(f1, t1).code));
    PlacedLast(r.code, n, t2, Fixed(SerializeAct(f2, t2).code));
  }

  lemma ActNested(s: string, f: Act, n: nat)
    ensures var r := SerializeMFunctionF(s, f, n);
      && r.code[0].link == r.next
      && r.code[0].args[0] == FunPtr(n + 1)
      && Placed(r.code, n, n + 1, Fixed(SerializeAct(f, n + 1).code))
      && r.code[|r.code| - 1].link == TERMINAL
  {
    var r := SerializeMFunctionF(s, f, n);
    var f1 := SerializeAct(f, n + 1);
    var h := Descr(s, Slots([FunPtr(n + 1)]), n, f1.next);
    UnfoldNested(s, f, n);
    PlacedOne(r.code, h, Fixed(f1.code), n);
    PlacedLast(r.code, n, n + 1, Fixed(f1.code));
    assert h.args == h.args[..8];
  }

  lemma ActPair(s: string, f: Act, g: Act, n: nat)
    ensures var r := SerializeMFunctionFF(s, f, g, n);
      var t := SerializeAct(f, n + 1).next;
      && r.code[0].link == r.next
      && r.code[0].args[0] == FunPtr(n + 1) && r.code[0].args[1] == FunPtr(t)
      && Placed(r.code, n, n + 1, Fixed(SerializeAct(f, n + 1).code))
      && Placed(r.code, n, t, Fixed(SerializeAct(g, t).code))
  {
    var r := SerializeMFunctionFF(s, f, g, n);
    var f1 := SerializeAct(f, n + 1);
    var f2 := SerializeAct(g, f1.next);
    var h := Descr(s, Slots([FunPtr(n + 1), FunPtr(f1.next)]), n, f2.next);
    UnfoldPair(s, f, g, n);
    assert r.code == [h] + Fixed(f1.code) + Fixed(f2.code) + [];
    PlacedThree(r.code, h, Fixed(f1.code), Fixed(f2.code), [], n, f1.next, f2.next);
    assert h.args == h.args[..8];
  }

  /** Both action children of MFunctionFF end TERMINAL after the fix-up. */
  lemma PairChildrenTerminal(s: string, f: Act, g: Act, n: nat)
    ensures var r := SerializeMFunctionFF(s, f, g, n);
      var t := SerializeAct(f, n + 1).next;
      r.code[t - n - 1].link == TERMINAL && r.code[|r.code| - 1].link == TERMINAL
  {
    ActPair(s, f, g, n);
    var r := SerializeMFunctionFF(s, f, g, n);
    var t := SerializeAct(f, n + 1).next;
    PlacedLast(r.code, n, n + 1, Fixed(SerializeAct(f, n + 1).code));
    PlacedLast(r.code, n, t, Fixed(SerializeAct(g, t).code));
  }

  /** The first descriptor of any action other than a Composition continues right after the whole action. */
  lemma ActHeadLink(a: Act, n: nat)
    requires !a.Composition?
    ensures SerializeAct(a, n).code[0].link == SerializeAct(a, n).next
  {
  }

  /**
   * The fix-up patches only the last descriptor of an embedded child: when
   * that child is itself a wrapper such as MFunctionP, its own head keeps
   * the link to the first index after it, which is where the sibling's code
   * starts.
   */
  lemma EmbeddedWrapperKeepsLink(s: string, t: string, p: Pred, g: Act, n: nat)
    ensures var r := SerializeAct(MFunctionFF(s, MFunctionP(t, p), g), n);
      var sibling := SerializeAct(MFunctionP(t, p), n + 1).next;
      && 1 < sibling - n < |r.code|
      && r.code[1].symbol == t
      && r.code[1].link == sibling
      && r.code[sibling - n] == Fixed(SerializeAct(g, sibling).code)[0]
  {
    var f := MFunctionP(t, p);
    var F := SerializeAct(f, n + 1);
    var G := SerializeAct(g, F.next);
    var h := Descr(s, Slots([FunPtr(n + 1), FunPtr(F.next)]), n, G.next);
    UnfoldPair(s, f, g, n);
    ActFilter(f, n + 1);
    SecondBlockHeads(SerializeAct(MFunctionFF(s, f, g), n).code, h, F.code, G.code);
  }

  /** After a head descriptor, a fixed-up block of two or more keeps its first descriptor, and the next block starts right after it. */
  lemma SecondBlockHeads(code: seq<Descr>, h: Descr, a: seq<Descr>, b: seq<Descr>)
    requires code == [h] + Fixed(a) + Fixed(b) + [] && |a| >= 2 && |b| >= 1
    ensures |code| > 1 + |a| && code[1] == a[0] && code[1 + |a|] == Fixed(b)[0]
  {
    assert code[1] == Fixed(a)[0];
    assert code[1 + |a|] == (Fixed(b) + [])[0];
  }

  // ---------------------------------------------------------------------------
  // Composition

  /** Composition adds no descriptor: the left operand's code, then the right's, unpatched. */
  lemma CompositionConcatenates(f: Act, g: Act, n: nat)
    ensures var l := SerializeAct(f, n);
      var rt := SerializeAct(g, l.next);
      var r := SerializeComposition(f, g, n);
      && r.code == l.code + rt.code && r.next == rt.next
      && |r.code| == |l.code| + |rt.code|
      && r.code[..|l.code|] == l.code && r.code[|l.code|..] == rt.code
  {
  }

  /** (f >-> g) >-> h and f >-> (g >-> h) produce the same program and the same next index. */
  lemma CompositionAssociative(f: Act, g: Act, h: Act, n: nat)
    ensures SerializeAct(Composition(Composition(f, g), h), n) == SerializeAct(Composition(f, Composition(g, h)), n)
  {
    var F := SerializeAct(f, n);
    var G := SerializeAct(g, F.next);
    UnfoldComposition(f, g, n);
    UnfoldComposition(Composition(f, g), h, n);
    UnfoldComposition(g, h, F.next);
    UnfoldComposition(f, Composition(g, h), n);
    BlocksAssociative(F, G, SerializeAct(h, G.next), SerializeAct(Composition(f, g), n), SerializeAct(Composition(g, h), F.next),
                      SerializeAct(Composition(Composition(f, g), h), n), SerializeAct(Composition(f, Composition(g, h)), n));
  }

  /** Appending three blocks left-nested or right-nested gives the same code and the same next index. */
  lemma BlocksAssociative(F: Serialized, G: Serialized, H: Serialized, FG: Serialized, GH: Serialized, L: Serialized, R: Serialized)
    requires FG == Serialized(F.code + G.code, G.next) && L == Serialized(FG.code + H.code, H.next)
    requires GH == Serialized(G.code + H.code, H.next) && R == Serialized(F.code + GH.code, GH.next)
    ensures L == R
  {
    assert (F.code + G.code) + H.code == F.code + (G.code + H.code);
  }

  // ---------------------------------------------------------------------------
  // Symbols travel verbatim, in pre-order

  /** The symbol column of a program. */
  function Symbols(code: seq<Descr>): seq<string>
  {
    seq(|code|, i requires 0 <= i < |code| => code[i].symbol)
  }

  lemma SymbolsAppend(a: seq<Descr>, b: seq<Descr>)
    ensures Symbols(a + b) == Symbols(a) + Symbols(b)
  {
    assert forall i :: 0 <= i < |a + b| ==> Symbols(a + b)[i] == (Symbols(a) + Symbols(b))[i];
  }

  lemma SymbolsFixed(c: seq<Descr>)
    ensures Symbols(Fixed(c)) == Symbols(c)
  {
  }

  /** The symbols of a property tree in pre-order: node first, then children left to right. */
  function PropSymbols(p: Prop): seq<string>
  {
    [p.symbol]
  }

  function PredSymbols(p: Pred): seq<string>
  {
    match p
    case PredicateR(s, prop) => [s] + PropSymbols(prop)
    case PredicateR1(s, prop, _) => [s] + PropSymbols(prop)
    case Combinator1(s, q) => [s] + PredSymbols(q)
    case Combinator2(s, q1, q2) => [s] + PredSymbols(q1) + PredSymbols(q2)
    case _ => [p.symbol]
  }

  /** A Composition contributes no symbol of its own. */
  function ActSymbols(a: Act): seq<string>
  {
    match a
    case MFunction1P(s, _, p) => [s] + PredSymbols(p)
    case MFunctionP(s, p) => [s] + PredSymbols(p)
    case MFunctionPF(s, p, f) => [s] + PredSymbols(p) + ActSymbols(f)
    case MFunctionPFF(s, p, f1, f2) => [s] + PredSymbols(p) + ActSymbols(f1) + ActSymbols(f2)
    case MFunctionF(s, f) => [s] + ActSymbols(f)
    case MFunctionFF(s, f, g) => [s] + ActSymbols(f) + ActSymbols(g)
    case Composition(f, g) => ActSymbols(f) + ActSymbols(g)
    case _ => [a.symbol]
  }

  /** serialize emits one descriptor per predicate node, in pre-order, with the node's symbol unchanged. */
  lemma {:induction false} PredSymbolsPreserved(p: Pred, n: nat)
    ensures Symbols(SerializePred(p, n).code) == PredSymbols(p)
    decreases p
  {
    var r := SerializePred(p, n);
    match p
    case PredicateR(s, prop) =>
      SymbolsAppend([r.code[0]], SerializeProp(prop, n + 1).code);
    case PredicateR1(s, prop, _) =>
      SymbolsAppend([r.code[0]], SerializeProp(prop, n + 1).code);
    case Combinator1(s, q) =>
      PredSymbolsPreserved(q, n + 1);
      SymbolsAppend([r.code[0]], SerializePred(q, n + 1).code);
    case Combinator2(s, q1, q2) =>
      PredSymbolsPreserved(q1, n + 1);
      PredSymbolsPreserved(q2, SerializePred(q1, n + 1).next);
      BinarySymbols(s, q1, q2, n);
    case _ =>
  }

  lemma BinarySymbols(s: string, q1: Pred, q2: Pred, n: nat)
    requires Symbols(SerializePred(q1, n + 1).code) == PredSymbols(q1)
    requires Symbols(SerializePred(q2, SerializePred(q1, n + 1).next).code) == PredSymbols(q2)
    ensures Symbols(SerializePred(Combinator2(s, q1, q2), n).code) == PredSymbols(Combinator2(s, q1, q2))
  {
    var c1 := SerializePred(q1, n + 1);
    var c2 := SerializePred(q2, c1.next);
    var h := [Descr(s, Slots([FunPtr(n + 1), FunPtr(c1.next)]), n, TERMINAL)];
    assert SerializePred(Combinator2(s, q1, q2), n).code == h + c1.code + c2.code;
    SymbolsAppend(h, c1.code);
    SymbolsAppend(h + c1.code, c2.code);
    assert Symbols(h) == [s];
  }

  /** serialize emits one descriptor per action node (none for a Composition), in pre-order, symbols unchanged. */
  lemma {:induction false} ActSymbolsPreserved(a: Act, n: nat)
    ensures Symbols(SerializeAct(a, n).code) == ActSymbols(a)
    decreases a
  {
    match a
    case MFunction1P(_, _, p) =>
      PredSymbolsPreserved(p, n + 1);
      FilterSymbols(a, n);
    case MFunctionP(_, p) =>
      PredSymbolsPreserved(p, n + 1);
      FilterSymbols(a, n);
    case MFunctionPF(s, p, f) =>
      PredSymbolsPreserved(p, n + 1);
      ActSymbolsPreserved(f, SerializePred(p, n + 1).next);
      GuardedSymbols(s, p, f, n);
    case MFunctionPFF(s, p, f1, f2) =>
      PredSymbolsPreserved(p, n + 1);
      ActSymbolsPreserved(f1, SerializePred(p, n + 1).next);
      ActSymbolsPreserved(f2, SerializeAct(f1, SerializePred(p, n + 1).next).next);
      BranchSymbols(s, p, f1, f2, n);
    case MFunctionF(s, f) =>
      ActSymbolsPreserved(f, n + 1);
      NestedSymbols(s, f, n);
    case MFunctionFF(s, f, g) =>
      ActSymbolsPreserved(f, n + 1);
      ActSymbolsPreserved(g, SerializeAct(f, n + 1).next);
      PairSymbols(s, f, g, n);
    case Composition(f, g) =>
      ActSymbolsPreserved(f, n);
      ActSymbolsPreserved(g, SerializeAct(f, n).next);
      ComposedSymbols(f, g, n);
    case _ =>
  }

  lemma FilterSymbols(a: Act, n: nat)
    requires a.MFunction1P? || a.MFunctionP?
    requires Symbols(SerializePred(a.pred, n + 1).code) == PredSymbols(a.pred)
    ensures Symbols(SerializeAct(a, n).code) == ActSymbols(a)
  {
    var p1 := SerializePred(a.pred, n + 1);
    var h := Descr(a.symbol, Slots(if a.MFunctionP? then [FunPtr(n + 1)] else [a.arg, FunPtr(n + 1)]), n, p1.next);
    UnfoldFilter(a, n);
    SymbolsAppend([h], p1.code);
    assert ActSymbols(a) == [a.symbol] + PredSymbols(a.pred);
  }

  lemma NestedSymbols(s: string, f: Act, n: nat)
    requires Symbols(SerializeAct(f, n + 1).code) == ActSymbols(f)
    ensures Symbols(SerializeAct(MFunctionF(s, f), n).code) == ActSymbols(MFunctionF(s, f))
  {
    var f1 := SerializeAct(f, n + 1);
    var h := Descr(s, Slots([FunPtr(n + 1)]), n, f1.next);
    UnfoldNested(s, f, n);
    SymbolsFixed(f1.code);
    SymbolsAppend([h], Fixed(f1.code));
  }

  lemma ComposedSymbols(f: Act, g: Act, n: nat)
    requires Symbols(SerializeAct(f, n).code) == ActSymbols(f)
    requires Symbols(SerializeAct(g, SerializeAct(f, n).next).code) == ActSymbols(g)
    ensures Symbols(SerializeAct(Composition(f, g), n).code) == ActSymbols(Composition(f, g))
  {
    var v1 := SerializeAct(f, n);
    UnfoldComposition(f, g, n);
    SymbolsAppend(v1.code, SerializeAct(g, v1.next).code);
  }

  /** The next free index is the start plus the number of non-Composition nodes in the tree. */
  lemma NextCountsNodes(a: Act, n: nat)
    ensures SerializeAct(a, n).next == n + |ActSymbols(a)|
  {
    ActSymbolsPreserved(a, n);
  }

  /** The symbol column of a head descriptor followed by blocks. */
  lemma SymbolsOfParts(code: seq<Descr>, h: Descr, a: seq<Descr>, b: seq<Descr>, c: seq<Descr>)
    requires code == [h] + a + b + c
    ensures Symbols(code) == [h.symbol] + Symbols(a) + Symbols(b) + Symbols(c)
  {
    SymbolsAppend([h], a);
    SymbolsAppend([h] + a, b);
    SymbolsAppend([h] + a + b, c);
  }

  lemma GuardedSymbols(s: string, p: Pred, f: Act, n: nat)
    requires Symbols(SerializePred(p, n + 1).code) == PredSymbols(p)
    requires Symbols(SerializeAct(f, SerializePred(p, n + 1).next).code) == ActSymbols(f)
    ensures Symbols(SerializeAct(MFunctionPF(s, p, f), n).code) == ActSymbols(MFunctionPF(s, p, f))
  {
    var p1 := SerializePred(p, n + 1);
    var c1 := SerializeAct(f, p1.next);
    var h := Descr(s, Slots([FunPtr(n + 1), FunPtr(p1.next)]), n, c1.next);
    UnfoldGuarded(s, p, f, n);
    SymbolsFixed(c1.code);
    SymbolsOfParts(SerializeAct(MFunctionPF(s, p, f), n).code, h, p1.code, Fixed(c1.code), []);
    assert Symbols([]) == [];
  }

  lemma BranchSymbols(s: string, p: Pred, f1: Act, f2: Act, n: nat)
    requires Symbols(SerializePred(p, n + 1).code) == PredSymbols(p)
    requires Symbols(SerializeAct(f1, SerializePred(p, n + 1).next).code) == ActSymbols(f1)
    requires Symbols(SerializeAct(f2, SerializeAct(f1, SerializePred(p, n + 1).next).next).code) == ActSymbols(f2)
    ensures Symbols(SerializeAct(MFunctionPFF(s, p, f1, f2), n).code) == ActSymbols(MFunctionPFF(s, p, f1, f2))
  {
    var p1 := SerializePred(p, n + 1);
    var c1 := SerializeAct(f1, p1.next);
    var c2 := SerializeAct(f2, c1.next);
    var h := Descr(s, Slots([FunPtr(n + 1), FunPtr(p1.next), FunPtr(c1.next)]), n, c2.next);
    UnfoldBranch(s, p, f1, f2, n);
    SymbolsFixed(c1.code);
    SymbolsFixed(c2.code);
    SymbolsOfParts(SerializeAct(MFunctionPFF(s, p, f1, f2), n).code, h, p1.code, Fixed(c1.code), Fixed(c2.code));
  }

  lemma PairSymbols(s: string, f: Act, g: Act, n: nat)
    requires Symbols(SerializeAct(f, n + 1).code) == ActSymbols(f)
    requires Symbols(SerializeAct(g, SerializeAct(f, n + 1).next).code) == ActSymbols(g)
    ensures Symbols(SerializeAct(MFunctionFF(s, f, g), n).code) == ActSymbols(MFunctionFF(s, f, g))
  {
    var f1 := SerializeAct(f, n + 1);
    var f2 := SerializeAct(g, f1.next);
    var h := Descr(s, Slots([FunPtr(n + 1), FunPtr(f1.next)]), n, f2.next);
    UnfoldPair(s, f, g, n);
    SymbolsFixed(f1.code);
    SymbolsFixed(f2.code);
    SymbolsOfParts(SerializeAct(MFunctionFF(s, f, g), n).code, h, Fixed(f1.code), Fixed(f2.code), []);
    assert Symbols([]) == [];
  }

  // ---------------------------------------------------------------------------
  // The list overload

  /** A list of plain MFunctions becomes one descriptor each, consecutive indices, each continuing at the next. */
  lemma {:induction false} PlainListShape(cont: seq<Act>, n: nat)
    requires forall i :: 0 <= i < |cont| ==> cont[i].MFunction0?
    ensures var r := SerializeAll(cont, n);
      && |r.code| == |cont| && r.next == n + |cont|
      && forall i :: 0 <= i < |cont| ==> r.code[i] == Descr(cont[i].symbol, Slots([]), n + i, n + i + 1)
    decreases |cont|
  {
    if |cont| > 0 {
      PlainListShape(cont[..|cont| - 1], n);
    }
  }

  /** Serializing a list is serializing the composition of its elements. */
  lemma {:induction false} ListIsComposition(cont: seq<Act>, n: nat)
    requires |cont| >= 1
    ensures SerializeAll(cont, n) == SerializeAct(Chain(cont), n)
    decreases |cont|
  {
    if |cont| == 1 {
      assert cont[..0] == [];
      assert [] + SerializeAct(cont[0], n).code == SerializeAct(cont[0], n).code;
    } else {
      ListIsComposition(cont[..|cont| - 1], n);
    }
  }

  // ---------------------------------------------------------------------------
  // A worked example: the guard "less" over the property "ip_len" and the literal 100

  /** less over ip_len and 100: the guard's FunPtr comes first, the literal second, then the property. */
  lemma LessThanIpLen()
    ensures var r := SerializePred(PredicateR1("less", Property("ip_len", []), DataArg("100", 4)), 0);
      && r.next == 2
      && r.code == [Descr("less", Slots([FunPtr(1), DataArg("100", 4)]), 0, TERMINAL),
                    Descr("ip_len", Slots([]), 1, TERMINAL)]
  {
  }
}

=== FILE: text.dfy ===
/**
 * String helpers shared by the renderers of lang.hpp: std::to_string on
 * size_t values, and the "each part followed by a blank" layout that both
 * the vector display and show(FunctionDescr) build with a loop.
 */
module Text {

  predicate IsDigit(c: char) {
    '0' <= c <= '9'
  }

  function Digit(d: nat): (c: char)
    requires d < 10
    ensures IsDigit(c)
  {
    ('0' as int + d) as char
  }

  /** std::to_string of an unsigned value: its decimal digits, no leading zero. */
  function Decimal(n: nat): (r: string)
    ensures |r| >= 1
    ensures forall i :: 0 <= i < |r| ==> IsDigit(r[i])
    ensures r[0] == '0' ==> n == 0
    ensures r[0] == '0' ==> r == "0"
    decreases n
  {
    if n < 10 then [Digit(n)] else Decimal(n / 10) + [Digit(n % 10)]
  }

  /** The value a string of decimal digits denotes (most significant digit first). */
  function DecimalValue(s: string): nat
    requires forall i :: 0 <= i < |s| ==> IsDigit(s[i])
  {
    if |s| == 0 then 0
    else
      assert IsDigit(s[|s| - 1]);
      10 * DecimalValue(s[..|s| - 1]) + (s[|s| - 1] as int - '0' as int)
  }

  /** Reading back what Decimal wrote gives the number: to_string loses nothing. */
  lemma {:induction false} DecimalRoundTrip(n: nat)
    ensures DecimalValue(Decimal(n)) == n
    decreases n
  {
    if n >= 10 {
      DecimalRoundTrip(n / 10);
      var r := Decimal(n);
      assert r[..|r| - 1] == Decimal(n / 10);
    }
  }

  /** Every part followed by one blank: "a b c " for ["a", "b", "c"]. */
  function Terminated(parts: seq<string>): string
  {
    if |parts| == 0 then ""
    else Terminated(parts[..|parts| - 1]) + parts[|parts| - 1] + " "
  }

  /** The layout distributes over concatenation of the part lists. */
  lemma {:induction false} TerminatedAppend(a: seq<string>, b: seq<string>)
    ensures Terminated(a + b) == Terminated(a) + Terminated(b)
    decreases |b|
  {
    if |b| > 0 {
      var ab := a + b;
      assert ab[..|ab| - 1] == a + b[..|b| - 1];
      TerminatedAppend(a, b[..|b| - 1]);
    } else {
      assert a + b == a;
    }
  }

  /** Total length: each part plus its blank. */
  function TerminatedLength(parts: seq<string>): nat
  {
    if |parts| == 0 then 0 else TerminatedLength(parts[..|parts| - 1]) + |parts[|parts| - 1]| + 1
  }

  lemma {:induction false} TerminatedSize(parts: seq<string>)
    ensures |Terminated(parts)| == TerminatedLength(parts)
    ensures |Terminated(parts)| >= |parts|
    decreases |parts|
  {
    if |parts| > 0 {
      TerminatedSize(parts[..|parts| - 1]);
    }
  }
}

=== FILE: wrappers.dfy ===
/** Option and Result, the two failure-carrying datatypes the model uses. */
module Wrappers {

  datatype Option<+T> = None | Some(value: T)

  /** A result that is either a value or the error the C++ code would throw or refuse. */
  datatype Result<+T, +E> = Ok(value: T) | Err(error: E) {

    predicate IsFailure() {
      Err?
    }

    function PropagateFailure<U>(): Result<U, E>
      requires Err?
    {
      Err(error)
    }

    function Extract(): T
      requires Ok?
    {
      value
    }
  }
}
